=== FILE: README.md ===
# mcc task registry and worktree lifecycle, in Dafny

mcc manages "tasks". A task is a named piece of work that lives in its own
git worktree under `<cwd>/tasks/<name>`, on its own branch. The tasks are
recorded in a JSON registry, `tasks.json`.

This project models three things:

- **The registry operations:** load with its empty default, create, get,
  update, delete, list newest first, and the worktree location of a task.
- **The pure parts of the git gateway:** mapping probe failures to `false`,
  classifying the diagnostics of `git worktree add`, and the parser for
  `git worktree list --porcelain`.
- **Five commands:** `new`, `resume`, `delete`, `open` and `status`. Each is
  a transition over an abstract world.

The world (`Lifecycle.World`) has four parts:

- the registry file (absent, unparsable, or a parsed registry);
- the set of paths that exist;
- the branches the commands made local (created by `new`, or fetched by
  `resume`);
- the set of worktrees that hold a notes file (`CLAUDE.md`).

No command reads the branch set. Whether a branch exists is git's answer to
the probe, which is an input like every other git answer, so the model does
not tie it to that set.

A command takes git's answers as inputs (`Git.CommandOutcome`). It also takes
the clock (`now: nat`), the generated task id, the user's answer to the
delete prompt, and, for `resume`, whether the recorded branch tracks a
`CLAUDE.md` of its own, so that checking it out brings one along.

`new`, `resume`, `delete` and `open` each return three things: their exit
status (`Pass` or `Fail(CommandError)`), the world they leave, and the
ordered log of external operations they attempted (`Lifecycle.Effect`). Each
log entry is one of: a branch probe, a fetch, a worktree creation or
removal, a removal warning, writing notes, or opening a terminal.

`status` only reads, so it returns no world. For one task it returns either
`TaskNotFound` or a report: the record, what inspecting the worktree found,
and the git reads it made (the worktree's branch, then its status). Without
a name it returns one row per active task, holding the task and its
summary; the model records no git reads for these rows.

Modules, in dependency order:

| module | file | content |
|---|---|---|
| `Results` | results.dfy | `Option`, `Result`, `Outcome` |
| `Text` | text.dfy | ECMAScript `trim`, one-character `split`, `startsWith`, `includes`, line counting |
| `Types` | types.dfy | `Task`, `Registry`, `Config`, `WorktreeInfo` |
| `Paths` | paths.dfy | `path.join` of a directory and a segment, `path.basename` |
| `Tasks` | tasks.dfy | the registry operations |
| `Git` | git.dfy | failure mapping, error classification, porcelain parser |
| `Lifecycle` | lifecycle.dfy | world, effects, command errors |
| `NewCommand`, `ResumeCommand`, `DeleteCommand`, `OpenCommand`, `StatusCommand` | `*_command.dfy` | the commands |

## Model

| member | source | states |
|---|---|---|
| `Tasks.Load` | src/lib/tasks.ts:12-33 | A parsed file gives back its registry. A missing file or one that does not parse gives version "1.0.0" with no tasks. |
| `Tasks.LoadAfterSave` | src/lib/tasks.ts:35-38 | Saving writes the whole registry, so the next load returns exactly what was saved. |
| `Tasks.CreateTask` | src/lib/tasks.ts:40-69 | Fails with AlreadyExists exactly when the name is taken. Otherwise it adds exactly that key, keeps every other record, and keeps the version. The new record carries the given id, name, branch, repository and description, is active, and has created == lastAccessed == now and no custom notes. |
| `Tasks.GetTask` | src/lib/tasks.ts:71-74 | Finds a record exactly when the name is a key, and returns that record. |
| `Tasks.MergeLaws` | src/lib/tasks.ts:84 | The shallow merge `{...task, ...updates}`: the empty update is the identity, applying an update twice equals applying it once, and two updates in a row equal their combination. |
| `Tasks.RefreshKeepsIdentity` | src/commands/open.ts:26-29 | The access refresh sets status active and lastAccessed to now, and leaves every other field (name, branch, id, …) as it was. |
| `Tasks.UpdateTask` | src/lib/tasks.ts:76-86 | Fails with NotFound exactly when the name is absent. Otherwise that record becomes the merge of old and new fields, and the keys, the version and every other record are unchanged. |
| `Tasks.DeleteTask` | src/lib/tasks.ts:88-97 | Fails with NotFound exactly when the name is absent. Otherwise exactly that key disappears and every remaining record is unchanged. |
| `Tasks.InsertByRecency` | src/lib/tasks.ts:107-109 | Inserting into a newest-first sequence keeps it newest first, adds the record once, and otherwise keeps the same multiset. |
| `Tasks.SortByRecency` | src/lib/tasks.ts:107-109 | The result is ordered by lastAccessed, non-increasing, and is a permutation of the input. |
| `Tasks.TallyStep` | src/lib/tasks.ts:101-105 | Moving one name from the unvisited part of the registry to the picked records (when the filter selects it) keeps the count of every record equal to the number of names the filter selects for it. |
| `Tasks.ListTasks` | src/lib/tasks.ts:99-110 | Returns the records the status filter selects (all of them with no filter), each as many times as names hold it and no others, ordered newest first. Its length is the number of selected names. |
| `Tasks.TaskPath` | src/lib/tasks.ts:112-114 | The location is `<cwd>/tasks/<name>`: the tasks directory joined to cwd, a separator, then the name. |
| `Tasks.TaskPathInjective` | src/lib/tasks.ts:112-114 | Two names with the same location are the same name. |
| `Tasks.BaseNameOfTaskPath` | src/lib/tasks.ts:112-114 | For a non-empty name without separators (every name `new` admits), the base name of its location is the name itself. |
| `Tasks.CreateTaskAsWritten` | src/lib/tasks.ts:61-63 | With the inherited-property lookup of the source, creation fails exactly when the name is a key or an `Object.prototype` member. |
| `Tasks.CreateConstructorAsWritten` | src/lib/tasks.ts:59-66 | On an empty registry, the as-written creation of "constructor" reports AlreadyExists; the own-key creation succeeds. |
| `Text.Trim` | src/lib/git.ts:55 | The result is an infix of the input surrounded only by white space (the ECMAScript set), and it neither starts nor ends with white space. |
| `Text.TrimEmptyIff` | src/commands/status.ts:47 | A text trims to nothing exactly when it is all white space. |
| `Text.TrimSurrounded` | src/commands/delete.ts:26 | White space around a text that neither starts nor ends with white space is exactly what trim removes. |
| `Text.Split` | src/lib/git.ts:55 | Splitting on one character gives one more piece than there are separators. No piece holds the separator, and rejoining the pieces gives back the input. |
| `Text.SplitJoin` | src/commands/status.ts:81 | Splitting a join of separator-free pieces recovers exactly those pieces. |
| `Text.CountAppend` | src/commands/status.ts:81 | Separator counts add up over concatenation. |
| `Text.JoinEnds` | src/commands/status.ts:81 | A join starts with its first piece and ends with its last. |
| `Text.ContainsIff` | src/lib/git.ts:22 | The `includes` scan answers true exactly when the text occurs at some index. |
| `Paths.BaseNameAfterSeparator` | src/lib/git.ts:38 | `path.basename` of `dir/name`, for a non-empty name without separators, is `name`. |
| `Paths.BaseNameIgnoresTrailingSeparators` | src/lib/git.ts:38 | As in Node's posix `path.basename`, trailing separators are ignored: the base name of `d/` and of `d//` is that of `d`, and `/` and `//` have an empty base name. |
| `Git.StderrIncludes` | src/lib/git.ts:22 | True exactly when the failure has a standard error in which the text occurs. |
| `Git.ClassifyCreate` | src/lib/git.ts:14-27 | Succeeds exactly when git did. A diagnostic mentioning "already exists" becomes BranchAlreadyExists of the branch. Any other failure is passed on with its standard error and message. |
| `Git.ClassifyCreateFromExisting` | src/lib/git.ts:29-44 | Succeeds exactly when git did. "already exists" becomes WorktreePathExists with the path's basename. Otherwise "is already checked out" becomes BranchCheckedOutElsewhere. Otherwise the failure becomes a generic one carrying the standard error, or the message when there is none. |
| `Git.PathConflictTakesPrecedence` | src/lib/git.ts:37-40 | When both signatures occur in the diagnostic, the path conflict is reported. |
| `Git.ParseWorktreeListOfLines` | src/lib/git.ts:50-81 | Output that starts with a `worktree ` line and ends with a non-blank line followed by any white space parses exactly as its lines read one by one. This covers git's own output, whose every record ends with an empty line. |
| `Git.FoldAppend` | src/lib/git.ts:59-74 | Reading the lines of `a + b` is reading `a`, then `b` from where `a` left off. |
| `Git.OneRecordPerHeader` | src/lib/git.ts:57-78 | The paths of the records are the paths of the `worktree ` lines that carry a non-empty path, in input order. |
| `Git.RecordOfBlock` | src/lib/git.ts:60-73 | A `worktree <p>` line followed by non-header lines is one record with path p. It is bare or detached when such a line occurs. Its HEAD and branch are the suffixes of the last `HEAD ` and `branch ` lines (later lines overwrite earlier ones). All other lines are ignored. |
| `Git.ParseConcat` | src/lib/git.ts:59-78 | Output split before a header line parses as the concatenation of the two halves' records. |
| `Git.LinesBeforeFirstHeaderIgnored` | src/lib/git.ts:57-66 | Lines before the first `worktree ` line contribute nothing to the result. |
| `NewCommand.ValidNameIsOneSegment` | src/commands/new.ts:20-29 | A name that passes the check holds no separator, and its location's last segment is the name. |
| `NewCommand.BranchPrefix` | src/commands/new.ts:25 | The configured prefix when it is present and non-empty; "mcc/" otherwise. |
| `NewCommand.BranchFor` | src/commands/new.ts:25 | The requested branch when it is present and non-empty. Otherwise the prefix followed by the name, so the branch ends with the name. The result is never empty. |
| `NewCommand.Finish` | src/commands/new.ts:64-78 | Adds notes unless auto-generation is exactly false. Keeps the registry, paths and branches. Only appends to the log, and creates nothing. The log is exactly the earlier log, then the notes when generation is on, then the terminal without `--no-open`. |
| `NewCommand.New` | src/commands/new.ts:16-83 | No config, an invalid name, or an occupied location: it fails before any operation and the world is unchanged. Otherwise it probes the branch and makes exactly one creation, on the existing-branch path exactly when the probe succeeded. Any probe failure just selects the new-branch creation (`branchExists` of git.ts:93-100 turns failures into `false`). The command succeeds exactly when git's classified creation does, and a failed creation reports that classified error and changes nothing. Success adds exactly the location and exactly the branch, and adds the name to the registry: a fresh active record, or an existing record adopted unchanged. The registry version is kept. Notes afterwards are exactly those before, plus the new location when generation is on. The log is exactly the probe and the creation, then, after a success only, the notes when generation is on and the terminal without `--no-open`. |
| `NewCommand.Record` | src/commands/new.ts:47-78 | Recording always succeeds: a name not yet held gets a fresh active record stamped `now`, and a name already held keeps its record and the registry file is not rewritten. Other records, the version, paths and branches are kept. The log is exactly the earlier log, then the notes and terminal as configured. |
| `NewCommand.Create` | src/commands/new.ts:38-78 | Once the name is valid and the location free: the branch probe, then exactly one creation, on the existing branch exactly when the probe succeeded. It succeeds exactly when git's classified creation does and otherwise reports that error with the world unchanged. On success exactly the location and exactly the branch are added, the task is recorded fresh or the existing record is adopted, and the registry version is kept. Notes gain the location exactly when generation is on. The log is exactly the probe and the creation, then, after a success only, the notes when generation is on and the terminal without `--no-open`. |
| `NewCommand.NewTwiceFails` | src/commands/new.ts:32-36 | A second `new` of the same name fails on the occupied location and changes nothing. |
| `NewCommand.NewAdoptsExistingRecord` | src/commands/new.ts:48-62 | When the name is already registered, a successful `new` leaves the registry file as it was. |
| `NewCommand.NewFeatureXScenario` | src/commands/new.ts:25-45 | In an empty world with default settings, `new feature-x` records exactly that task, on branch "mcc/feature-x", at its location. |
| `NewCommand.NewRejectsBadName` | src/commands/new.ts:20-23 | "bad name!" is refused with no operation and no change. |
| `ResumeCommand.Reopen` | src/commands/resume.ts:60-72 | Refreshes the record (active, lastAccessed = now) and keeps the rest of the world. The log keeps what came before and gains the terminal exactly when `--no-open` is absent. |
| `ResumeCommand.Resume` | src/commands/resume.ts:13-77 | No config or an unknown task: it fails with no operation and no change. After a success the worktree exists. An existing worktree gets no git call: without `--no-open` the record is refreshed and the only operation is the terminal; with it nothing changes. A missing worktree: the branch is probed first, and any probe failure leads to a fetch, never to an error of its own (`branchExists`, git.ts:93-100). A failed fetch stops with the world unchanged and no creation. Otherwise exactly one creation follows, on the recorded branch at the task's location, and the command succeeds exactly when git's classified creation does, reporting its error otherwise. Notes are written exactly when a worktree was recreated, generation is on and the branch brought no `CLAUDE.md`. Branches are never dropped, and the only one that can be added is the recorded branch. A failure leaves paths and notes as they were. On success the notes gain the location exactly when generation is on or the branch brought a `CLAUDE.md`, and only that record changes. Whenever the world changes, the record becomes its refresh (`Merge` with status active and lastAccessed = now): id, name, branch, created, description and custom notes are kept. |
| `ResumeCommand.Recreate` | src/commands/resume.ts:40-72 | Probes the recorded branch first; a failed probe means a fetch, and a failed fetch stops with the world unchanged. Otherwise one creation on the recorded branch at the task's location, whose classified outcome is the command's. On success the worktree exists, holds notes when generation is on or the branch brought them, and exactly that record is refreshed. Notes are written exactly when generation is on and the checkout brought none (the test at resume.ts:55 runs after the checkout at :53). The terminal is opened exactly on success without `--no-open`. |
| `ResumeCommand.Checkout` | src/commands/resume.ts:42-72 | After the probe, and a fetch exactly when the probe failed, exactly one creation on the recorded branch; the command succeeds exactly when git's classified creation does. |
| `ResumeCommand.Attach` | src/commands/resume.ts:52-72 | A failed creation reports git's classified error and changes nothing. A successful one adds the worktree, writes notes exactly when generation is on and the checkout brought none, refreshes the record and opens the terminal unless `--no-open`. |
| `ResumeCommand.ResumeIdempotent` | src/commands/resume.ts:26-38 | After a successful resume that changed the world (or before a second one with `--no-open`), a second resume at the same time succeeds, creates nothing and leaves the world as the first left it. |
| `DeleteCommand.ConfirmedMeaning` | src/commands/delete.ts:26-29 | An accepted answer trims to one character. An all-blank answer is a refusal. "y" or "Y" surrounded by any white space is accepted. |
| `DeleteCommand.Removal` | src/commands/delete.ts:35-43 | Removal is attempted exactly when the location exists. The worktree is gone afterwards exactly when it was absent or the removal succeeded. A warning is given exactly when an attempted removal left it. The registry and the branches are untouched. |
| `DeleteCommand.Delete` | src/commands/delete.ts:11-54 | An unknown task fails with no change. A refused confirmation succeeds with no change and no operation. Once confirmed, exactly that record is removed whatever the removal outcome. Removal happens only once confirmed and where the location exists, and it is never the cause of failure. An attempted removal takes the worktree and its notes away exactly when git succeeds, and otherwise leaves both. The log is exactly the removal and, when it fails, the warning; nothing else is logged. Only that location's paths and notes can change, branches never change, and the registry version is kept. |
| `DeleteCommand.DeleteTwiceFails` | src/commands/delete.ts:13-19 | After a forced delete, a second delete finds no task and changes nothing. |
| `DeleteCommand.NewThenDelete` | src/commands/delete.ts:45-49 | `new` and then a forced `delete` with a successful removal restore the registry and the paths, while the branch remains. |
| `OpenCommand.Open` | src/commands/open.ts:7-37 | Succeeds exactly when configured, known and present; a missing worktree is WorktreeMissing. A failure changes nothing. Paths, branches and notes never change. On success exactly that record becomes active with lastAccessed = now and its other fields kept, and the only operation is the terminal. |
| `OpenCommand.OpenAgreesWithResume` | src/commands/open.ts:20-32 | Where the worktree exists, `open` and `resume` succeed together, leave the same world and attempt the same operations. |
| `OpenCommand.OpenIdempotent` | src/commands/open.ts:26-29 | A second `open` at the same time reproduces the first one's result. |
| `StatusCommand.TreeOf` | src/commands/status.ts:45-55 | A failed status read is reported with its message. Otherwise the tree is clean exactly when the listing is all white space; a dirty tree shows the untrimmed listing. |
| `StatusCommand.ShowTaskStatus` | src/commands/status.ts:19-56 | An unknown name is TaskNotFound. A missing worktree is reported with no git query. Otherwise the branch is read first, and a read failure ends the inspection with git's message kept. Drift is reported exactly when the trimmed current branch differs from the recorded one, and names it. The tree state follows from the status read. |
| `StatusCommand.Summarize` | src/commands/status.ts:75-88 | Not found exactly when the worktree is missing; unavailable exactly when git failed; clean exactly when the listing is all white space. A change count is the number of newlines in the trimmed listing plus one. |
| `StatusCommand.ChangesCountLines` | src/commands/status.ts:80-82 | For a listing of n newline-terminated lines, each holding a non-space character, the count is n. Trimming blanks off the first status code does not change the count. |
| `StatusCommand.NewlinesInside` | src/commands/status.ts:80-81 | Such a listing trims to a non-empty text holding n - 1 newlines. |
| `StatusCommand.LeadingCutInFirstLine` | src/commands/status.ts:80 | The white space that trim removes at the front lies within the first line, so it holds no newline. |
| `StatusCommand.TrailingCutInLastLine` | src/commands/status.ts:80 | The white space that trim removes at the back lies within the last line and its newline, so it holds exactly one newline. |
| `StatusCommand.Overview` | src/commands/status.ts:69-91 | One row per listed task, in order, each with that task's summary. |
| `StatusCommand.ShowAllStatus` | src/commands/status.ts:58-92 | Only active tasks, newest first, each as many times as names hold it, each with its summary. The result is empty exactly when no task is active. |
| `StatusCommand.Status` | src/commands/status.ts:6-17 | A non-empty name gives that task's report. No name, or an empty one, gives the overview: only active tasks, newest first, each as many times as names hold it, each with its summary, and empty exactly when no task is active. |

## Left out

- **Out of scope:** terminal launching, notes content, `sync`, `list`, `init`, the CLI wiring, and configuration I/O. These are presentation or shell plumbing.
  - Configuration is an input record.
  - Writing notes and opening a terminal are effects that always succeed; their failures are not modelled.
- **JSON:** a registry file is absent, unparsable, or a registry. Shape errors in parsable JSON (a registry with missing fields) are not modelled.
- **Concurrency:** neither atomic writing of `tasks.json` nor concurrent processes sharing it is modelled. Each command reads and writes the registry in sequence.
- **Time and ids:** ISO timestamps are a natural-number clock, and ids are opaque inputs. Sorting by `new Date(...).getTime()` is sorting by that number.
- **The confirmation prompt:** the answer read with `read -n 1` is an input string; the terminal interaction is not modelled.
- Tasks.TaskPath: joins literally. `path.join` also normalises `.`, `..` and repeated separators in the name. The two agree for the names `new` admits and for a normalised cwd.
- **`isGitRepo`** (src/lib/git.ts:5-12) is called only by `init`, which is outside the model. Its failure-to-`false` mapping is the same as `branchExists`, whose promise the contracts of `NewCommand.New` and `ResumeCommand.Resume` state in terms of the probe's outcome.
- Tasks.MergeLaws: the update is a record of optional fields, and an absent field keeps the old value. A `Partial<Task>` with an explicit `undefined` would erase a field; no caller passes one.
- Tasks.ListTasks: the order among records with equal lastAccessed is left open. The source's stable sort keeps the order of `Object.values`, and the map model has no insertion order.
- DeleteCommand.Removal: a failed `git worktree remove --force` is taken to leave the worktree in place. A partial removal is not modelled.
- ResumeCommand.Resume: a successful fetch makes the recorded branch local. A fetch that succeeds without creating the branch is not modelled.
- Git.ParseWorktreeListOfLines: requires that the last non-blank line not end in white space. Git never prints such a line, and one that did would lose that white space to the trim.
- NewCommand.New: writing `tasks.json` (`Bun.write`, src/lib/tasks.ts:35-38) always succeeds in the model. In the source a rejected write inside `createTask` makes `new` exit after the worktree and branch were created; the model does not promise anything about that case. The same holds for the registry writes of `resume`, `open` and `delete`.

## Findings

| source | as written | input that shows it | evidently intended | confidence | as-written member | corrected member |
|---|---|---|---|---|---|---|
| src/lib/tasks.ts:61 | `registry.tasks[name]` tests a plain object's property, so it also finds members inherited from `Object.prototype`. All of them pass the name check of `new`. | `createTask("constructor", …)` on an empty registry reports that the task already exists. `getTask` then returns the `Object` function, which `new` adopts as the task. | Only the registry's own keys count as existing tasks. | not executed | `Tasks.CreateConstructorAsWritten` | `Tasks.CreateTask` |

The rest of the model uses own-key lookup (`name in reg.tasks`) throughout.
`Tasks.CreateTaskAsWritten` is the as-written creation that the finding's
lemma uses.

=== FILE: delete_command.dfy ===
/** `delete <name>`: after confirmation, remove the task's worktree if it is
    there and drop the record. A failed removal is only a warning; the
    branch is never deleted. */
module DeleteCommand {
  import opened Results
  import opened Types
  import opened Lifecycle
  import Tasks
  import Git
  import Text
  import NewCommand

  /** The answer to the confirmation prompt, once trimmed, is a single `y`
      or `Y`. */
  predicate Confirmed(reply: string) {
    var t := Text.Trim(reply);
    t == "y" || t == "Y"
  }

  /** White space around the answer does not matter, anything longer than
      one letter is a refusal, and so is an empty answer. */
  lemma ConfirmedMeaning(reply: string, pad: string, pad2: string)
    requires Text.AllSpace(pad) && Text.AllSpace(pad2)
    ensures Confirmed(reply) ==> |Text.Trim(reply)| == 1
    ensures Text.AllSpace(reply) ==> !Confirmed(reply)
    ensures Confirmed(pad + "y" + pad2) && Confirmed(pad + "Y" + pad2)
  {
    Text.TrimEmptyIff(reply);
    Text.TrimSurrounded(pad, "y", pad2);
    Text.TrimSurrounded(pad, "Y", pad2);
  }

  /** Removing the worktree at `path` if it exists. A failed removal is
      reported as a warning and leaves the worktree in place; a successful
      one takes its notes with it. */
  function Removal(w: World, path: string, remove: Git.CommandOutcome): (r: Run)
    ensures r.exit.Pass? && r.world.store == w.store && r.world.branches == w.branches
    ensures RemoveWorktree(path) in r.effects <==> path in w.paths
    ensures path !in r.world.paths
            <==> path !in w.paths || (RemoveWorktree(path) in r.effects && remove.Succeeded?)
    ensures RemovalWarning(path) in r.effects <==> RemoveWorktree(path) in r.effects && path in r.world.paths
    ensures (r.world.paths == w.paths - {path} && r.world.notes == w.notes - {path}) || r.world == w
    ensures Creations(r.effects) == 0
  {
    CreationsSingle(RemoveWorktree(path));
    CreationsSingle(RemovalWarning(path));
    CreationsAppend([RemoveWorktree(path)], [RemovalWarning(path)]);
    if path !in w.paths then Run(Pass, w, [])
    else if remove.Succeeded? then
      Run(Pass, w.(paths := w.paths - {path}, notes := w.notes - {path}), [RemoveWorktree(path)])
    else Run(Pass, w, [RemoveWorktree(path), RemovalWarning(path)])
  }

  /** `delete`. `reply` is the answer to the prompt (read only without
      `--force`) and `remove` git's answer to the worktree removal. */
  function Delete(w: World, cwd: string, name: string, force: bool, reply: string,
                  remove: Git.CommandOutcome): (r: Run)
    // Unknown tasks, and a refused confirmation, change nothing.
    ensures name !in RegistryOf(w).tasks ==> r == Run(Fail(TaskNotFound(name)), w, [])
    ensures name in RegistryOf(w).tasks && !force && !Confirmed(reply) ==> r == Run(Pass, w, [])
    // Once confirmed, the command succeeds and the record is gone.
    ensures name in RegistryOf(w).tasks && (force || Confirmed(reply)) ==>
              var before := RegistryOf(w).tasks;
              var after := RegistryOf(r.world).tasks;
              && r.exit.Pass?
              && after.Keys == before.Keys - {name}
              && (forall k :: k in after ==> after[k] == before[k])
    // The worktree is removed only once confirmed and only where it
    // exists; a warning is given exactly when the removal left it there.
    ensures var path := Tasks.TaskPath(cwd, name);
            && (RemoveWorktree(path) in r.effects
                <==> name in RegistryOf(w).tasks && (force || Confirmed(reply)) && path in w.paths)
            && (RemovalWarning(path) in r.effects <==> RemoveWorktree(path) in r.effects && path in r.world.paths)
            && (path in w.paths && path !in r.world.paths ==> RemoveWorktree(path) in r.effects && remove.Succeeded?)
            && (RemoveWorktree(path) in r.effects ==> (path !in r.world.paths <==> remove.Succeeded?))
            && (r.world.paths == w.paths - {path} || r.world.paths == w.paths)
            // Only the task's own worktree and notes can go, and together.
            && ((r.world.paths == w.paths - {path} && r.world.notes == w.notes - {path})
                || (r.world.paths == w.paths && r.world.notes == w.notes))
            // The log is the removal, followed by the warning when it failed.
            && r.effects == (if RemoveWorktree(path) in r.effects
                             then [RemoveWorktree(path)] + (if remove.Failed? then [RemovalWarning(path)] else [])
                             else [])
    ensures r.world.notes <= w.notes
    ensures RegistryOf(r.world).version == RegistryOf(w).version
    // Branches are never touched, and no worktree is ever created.
    ensures r.world.branches == w.branches
    ensures Creations(r.effects) == 0
  {
    var reg := RegistryOf(w);
    match Tasks.GetTask(reg, name)
    case None => Run(Fail(TaskNotFound(name)), w, [])
    case Some(task) =>
      if !force && !Confirmed(reply) then Run(Pass, w, [])
      else
        var path := Tasks.TaskPath(cwd, name);
        var removal := Removal(w, path, remove);
        match Tasks.DeleteTask(reg, name)
        case Ok(next) => Run(Pass, removal.world.(store := Tasks.Save(next)), removal.effects)
        case Err(e) => Run(Fail(RegistryFailure(e)), w, [])
  }

  /** Deleting twice: the second attempt finds no task and changes
      nothing. */
  lemma DeleteTwiceFails(w: World, cwd: string, name: string, reply: string, remove: Git.CommandOutcome,
                         reply2: string, force2: bool, remove2: Git.CommandOutcome)
    requires name in RegistryOf(w).tasks
    ensures var first := Delete(w, cwd, name, true, reply, remove);
            Delete(first.world, cwd, name, force2, reply2, remove2) == Run(Fail(TaskNotFound(name)), first.world, [])
  {
    var first := Delete(w, cwd, name, true, reply, remove);
    assert name !in RegistryOf(first.world).tasks;
  }

  /** `new` followed by a forced `delete` whose removal succeeds restores
      the registry's task set and the worktree locations; the branch `new`
      created stays behind. */
  lemma NewThenDelete(w: World, cwd: string, cfg: Config, name: string, opts: NewCommand.NewOptions,
                      id: string, now: nat, probe: Git.CommandOutcome, add: Git.CommandOutcome,
                      reply: string, stdout: string)
    requires name !in RegistryOf(w).tasks
    requires NewCommand.New(w, cwd, Some(cfg), name, opts, id, now, probe, add).exit.Pass?
    ensures var made := NewCommand.New(w, cwd, Some(cfg), name, opts, id, now, probe, add).world;
            var gone := Delete(made, cwd, name, true, reply, Git.Succeeded(stdout)).world;
            && RegistryOf(gone).tasks == RegistryOf(w).tasks
            && gone.paths == w.paths
            && NewCommand.BranchFor(name, opts.branch, cfg) in gone.branches
  {
    var created := NewCommand.New(w, cwd, Some(cfg), name, opts, id, now, probe, add);
    var made := created.world;
    var path := Tasks.TaskPath(cwd, name);
    assert NewCommand.ValidName(name) && path !in w.paths;
    assert made.paths == w.paths + {path};
    var removed := Delete(made, cwd, name, true, reply, Git.Succeeded(stdout));
    var gone := removed.world;
    assert RemoveWorktree(path) in removed.effects;
    assert gone.paths == made.paths - {path};
    var before := RegistryOf(w).tasks;
    var after := RegistryOf(gone).tasks;
    assert after.Keys == before.Keys;
    forall k | k in after ensures after[k] == before[k] {
      assert after[k] == RegistryOf(made).tasks[k];
    }
  }
}

=== FILE: git.dfy ===
/** The git gateway. Running git is outside the model: each invocation is
    represented by its outcome. What remains is the gateway's own logic:
    turning failures of the probing calls into `false`, classifying the
    diagnostics of `git worktree add` into distinct error kinds, and parsing
    `git worktree list --porcelain`. */
module Git {
  import opened Results
  import opened Types
  import Text
  import Paths

  /** What one git invocation produced: its standard output when it exited
      successfully; otherwise its standard error, when the failure carries
      one, and the failure's message. */
  datatype CommandOutcome = Succeeded(stdout: string) | Failed(stderr: Option<string>, message: string)

  /** The error kinds the gateway reports. `CommandFailed` is a failure
      passed on unchanged, with the original diagnostic. */
  datatype GitError =
    | BranchAlreadyExists(branch: string)
    | WorktreePathExists(path: string, taskName: string)
    | BranchCheckedOutElsewhere(branch: string)
    | WorktreeAddFailed(detail: string)
    | CommandFailed(stderr: Option<string>, message: string)

  /** The failure's standard error mentions `text`. */
  ghost predicate Mentions(o: CommandOutcome, text: string) {
    o.Failed? && o.stderr.Some? && exists i :: Text.OccursAt(o.stderr.value, text, i)
  }

  /** The gateway's `includes` test on the standard error of a failure. */
  function StderrIncludes(o: CommandOutcome, text: string): (b: bool)
    requires o.Failed?
    ensures b <==> Mentions(o, text)
  {
    if o.stderr.Some? then
      Text.ContainsIff(o.stderr.value, text);
      Text.Contains(o.stderr.value, text)
    else
      false
  }

  /** `show-ref --verify refs/heads/<branch>`: the local branch exists
      exactly when the call succeeds; a failure of any kind is `false`,
      never an error. */
  function BranchExists(probe: CommandOutcome): (r: bool)
    ensures r <==> probe.Succeeded?
  {
    probe.Succeeded?
  }

  /** `worktree add <path> -b <branch>`: a diagnostic mentioning "already
      exists" is a branch-name collision; any other failure is passed on
      unchanged. */
  function ClassifyCreate(branch: string, o: CommandOutcome): (r: Outcome<GitError>)
    ensures r.Pass? <==> o.Succeeded?
    ensures r.Fail? && Mentions(o, "already exists") ==> r.error == BranchAlreadyExists(branch)
    ensures r.Fail? && !Mentions(o, "already exists") ==> r.error == CommandFailed(o.stderr, o.message)
  {
    if o.Succeeded? then Pass
    else if StderrIncludes(o, "already exists") then Fail(BranchAlreadyExists(branch))
    else Fail(CommandFailed(o.stderr, o.message))
  }

  /** `worktree add <path> <branch>`: "already exists" means the path is
      taken and is checked first; "is already checked out" means the branch
      is attached to another worktree; anything else becomes a generic
      failure carrying the standard error when there is one and the message
      otherwise. */
  function ClassifyCreateFromExisting(path: string, branch: string, o: CommandOutcome): (r: Outcome<GitError>)
    ensures r.Pass? <==> o.Succeeded?
    ensures r.Fail? && Mentions(o, "already exists") ==>
              r.error == WorktreePathExists(path, Paths.BaseName(path))
    ensures r.Fail? && !Mentions(o, "already exists") && Mentions(o, "is already checked out") ==>
              r.error == BranchCheckedOutElsewhere(branch)
    ensures r.Fail? && !Mentions(o, "already exists") && !Mentions(o, "is already checked out") ==>
              r.error == WorktreeAddFailed(o.stderr.GetOr(o.message))
  {
    if o.Succeeded? then Pass
    else if StderrIncludes(o, "already exists") then Fail(WorktreePathExists(path, Paths.BaseName(path)))
    else if StderrIncludes(o, "is already checked out") then Fail(BranchCheckedOutElsewhere(branch))
    else Fail(WorktreeAddFailed(o.stderr.GetOr(o.message)))
  }

  /** When a diagnostic mentions both signatures, the path conflict is the
      one reported. */
  lemma PathConflictTakesPrecedence(path: string, branch: string, stderr: string, message: string)
    requires exists i :: Text.OccursAt(stderr, "already exists", i)
    requires exists i :: Text.OccursAt(stderr, "is already checked out", i)
    ensures ClassifyCreateFromExisting(path, branch, Failed(Some(stderr), message))
            == Fail(WorktreePathExists(path, Paths.BaseName(path)))
  {
    assert Mentions(Failed(Some(stderr), message), "already exists");
  }

  // ---------------------------------------------------------------------
  // `git worktree list --porcelain`

  const WorktreePrefix: string := "worktree "
  const HeadPrefix: string := "HEAD "
  const BranchPrefix: string := "branch "

  /** A line that opens a new record. */
  predicate IsHeader(line: string) {
    Text.StartsWith(line, WorktreePrefix)
  }

  /** The record being filled in while the lines are read. A record whose
      path is absent or empty is never emitted. */
  datatype Draft = Draft(worktree: Option<string>, bare: bool, head: Option<string>,
                         branch: Option<string>, detached: bool)

  const Blank: Draft := Draft(None, false, None, None, false)

  /** The records emitted so far and the one being filled in. */
  datatype ParseState = ParseState(done: seq<WorktreeInfo>, current: Draft)

  const Start: ParseState := ParseState([], Blank)

  /** The record a draft yields, if its path is non-empty. */
  function Flush(d: Draft): seq<WorktreeInfo> {
    if d.worktree.Some? && d.worktree.value != "" then
      [WorktreeInfo(d.worktree.value, d.bare, d.head, d.branch, d.detached)]
    else []
  }

  /** One line of the porcelain output: a header emits the previous record
      and starts a fresh one; `bare`, `HEAD `, `branch ` and `detached` lines
      fill in the current record; anything else is ignored. */
  function Step(st: ParseState, line: string): ParseState {
    if IsHeader(line) then
      ParseState(st.done + Flush(st.current), Blank.(worktree := Some(line[|WorktreePrefix|..])))
    else if line == "bare" then
      st.(current := st.current.(bare := true))
    else if Text.StartsWith(line, HeadPrefix) then
      st.(current := st.current.(head := Some(line[|HeadPrefix|..])))
    else if Text.StartsWith(line, BranchPrefix) then
      st.(current := st.current.(branch := Some(line[|BranchPrefix|..])))
    else if line == "detached" then
      st.(current := st.current.(detached := true))
    else
      st
  }

  /** The lines read one after the other, from the first to the last. */
  function Fold(st: ParseState, lines: seq<string>): ParseState
    decreases |lines|
  {
    if |lines| == 0 then st else Step(Fold(st, lines[..|lines| - 1]), lines[|lines| - 1])
  }

  /** The records of a sequence of lines: those emitted while reading, then
      the last one. */
  function ParseLines(lines: seq<string>): seq<WorktreeInfo> {
    var st := Fold(Start, lines);
    st.done + Flush(st.current)
  }

  /** The porcelain parser: the output is trimmed and split into lines. */
  function ParseWorktreeList(output: string): seq<WorktreeInfo> {
    ParseLines(Text.Split(Text.Trim(output), '\n'))
  }

  /** What `git worktree list --porcelain` prints: lines starting with a
      `worktree ` line, each record (the last included) closed by an empty
      line, so the text ends in white space after the last non-blank line.
      Trimming and splitting recover the lines up to that last one, and the
      output is parsed line by line. */
  lemma {:induction false} ParseWorktreeListOfLines(lines: seq<string>, tail: string)
    requires |lines| >= 1 && IsHeader(lines[0])
    requires forall i :: 0 <= i < |lines| ==> '\n' !in lines[i]
    requires var last := lines[|lines| - 1]; |last| > 0 && !Text.IsSpace(last[|last| - 1])
    requires Text.AllSpace(tail)
    ensures ParseWorktreeList(Text.Join(lines, '\n') + tail) == ParseLines(lines)
  {
    var j := Text.Join(lines, '\n');
    Text.JoinEnds(lines, '\n');
    assert j[0] == lines[0][0] == 'w' by { assert WorktreePrefix[0] == 'w'; }
    var last := lines[|lines| - 1];
    assert j[|j| - 1] == last[|last| - 1] by { assert j[|j| - |last|..][|last| - 1] == last[|last| - 1]; }
    assert "" + j + tail == j + tail;
    Text.TrimSurrounded("", j, tail);
    Text.SplitJoin(lines, '\n');
  }

  lemma {:induction false} FoldAppend(st: ParseState, a: seq<string>, b: seq<string>)
    ensures Fold(st, a + b) == Fold(Fold(st, a), b)
    decreases |b|
  {
    if |b| == 0 {
      assert a + b == a;
    } else {
      assert (a + b)[..|a + b| - 1] == a + b[..|b| - 1];
      FoldAppend(st, a, b[..|b| - 1]);
    }
  }

  // Which paths are reported, and in what order

  /** The paths of the header lines that carry a non-empty path, in order. */
  function HeaderPaths(lines: seq<string>): seq<string>
    decreases |lines|
  {
    if |lines| == 0 then []
    else
      var last := lines[|lines| - 1];
      HeaderPaths(lines[..|lines| - 1])
        + (if IsHeader(last) && |last| > |WorktreePrefix| then [last[|WorktreePrefix|..]] else [])
  }

  function PathsOf(infos: seq<WorktreeInfo>): seq<string> {
    seq(|infos|, i requires 0 <= i < |infos| => infos[i].worktree)
  }

  lemma PathsOfAppend(a: seq<WorktreeInfo>, b: seq<WorktreeInfo>)
    ensures PathsOf(a + b) == PathsOf(a) + PathsOf(b)
  {
  }

  lemma {:induction false} FoldPaths(lines: seq<string>)
    ensures PathsOf(Fold(Start, lines).done) + PathsOf(Flush(Fold(Start, lines).current)) == HeaderPaths(lines)
    decreases |lines|
  {
    if |lines| > 0 {
      var init := lines[..|lines| - 1];
      var st := Fold(Start, init);
      FoldPaths(init);
      PathsOfAppend(st.done, Flush(st.current));
      var st' := Fold(Start, lines);
      PathsOfAppend(st'.done, Flush(st'.current));
    }
  }

  /** One record per header line with a non-empty path, in input order:
      header lines with an empty path and lines before the first header
      produce no record. */
  lemma {:induction false} OneRecordPerHeader(lines: seq<string>)
    ensures PathsOf(ParseLines(lines)) == HeaderPaths(lines)
  {
    FoldPaths(lines);
    var st := Fold(Start, lines);
    PathsOfAppend(st.done, Flush(st.current));
  }

  // What one record holds

  /** The value of the last line with `prefix`, if any: later lines win. */
  function LastValue(lines: seq<string>, prefix: string): Option<string>
    decreases |lines|
  {
    if |lines| == 0 then None
    else if Text.StartsWith(lines[|lines| - 1], prefix) then Some(lines[|lines| - 1][|prefix|..])
    else LastValue(lines[..|lines| - 1], prefix)
  }

  /** The draft a header followed by `attrs` describes. */
  function DraftOf(path: string, attrs: seq<string>): Draft {
    Draft(Some(path), "bare" in attrs, LastValue(attrs, HeadPrefix), LastValue(attrs, BranchPrefix),
          "detached" in attrs)
  }

  lemma DraftOfSnoc(done: seq<WorktreeInfo>, path: string, init: seq<string>, last: string)
    requires !IsHeader(last)
    ensures Step(ParseState(done, DraftOf(path, init)), last) == ParseState(done, DraftOf(path, init + [last]))
  {
    var attrs := init + [last];
    assert attrs[..|attrs| - 1] == init && attrs[|attrs| - 1] == last;
    assert "bare" in attrs <==> "bare" in init || last == "bare";
    assert "detached" in attrs <==> "detached" in init || last == "detached";
    var head := LastValue(attrs, HeadPrefix);
    var branch := LastValue(attrs, BranchPrefix);
    assert HeadPrefix[0] == 'H' && BranchPrefix[0] == 'b' && |BranchPrefix| == 7;
    if last == "bare" || last == "detached" {
      assert last[0] == 'b' || last[0] == 'd';
      assert !Text.StartsWith(last, HeadPrefix) && !Text.StartsWith(last, BranchPrefix);
      assert head == LastValue(init, HeadPrefix) && branch == LastValue(init, BranchPrefix);
    } else if Text.StartsWith(last, HeadPrefix) {
      assert last[0] == 'H';
      assert head == Some(last[|HeadPrefix|..]) && branch == LastValue(init, BranchPrefix);
    } else if Text.StartsWith(last, BranchPrefix) {
      assert head == LastValue(init, HeadPrefix) && branch == Some(last[|BranchPrefix|..]);
    } else {
      assert head == LastValue(init, HeadPrefix) && branch == LastValue(init, BranchPrefix);
    }
  }

  lemma {:induction false} FoldBlock(st: ParseState, header: string, attrs: seq<string>)
    requires IsHeader(header)
    requires forall i :: 0 <= i < |attrs| ==> !IsHeader(attrs[i])
    ensures Fold(st, [header] + attrs)
            == ParseState(st.done + Flush(st.current), DraftOf(header[|WorktreePrefix|..], attrs))
    decreases |attrs|
  {
    var lines := [header] + attrs;
    if |attrs| == 0 {
      assert lines[..0] == [];
    } else {
      var init := attrs[..|attrs| - 1];
      var last := attrs[|attrs| - 1];
      assert lines[..|lines| - 1] == [header] + init;
      FoldBlock(st, header, init);
      DraftOfSnoc(st.done + Flush(st.current), header[|WorktreePrefix|..], init, last);
      assert attrs == init + [last];
    }
  }

  /** A header with path `p` followed by non-header lines is one record with
      path `p`, flagged bare or detached when such a line occurs, and with
      the values of the last `HEAD ` and `branch ` lines. */
  lemma {:induction false} RecordOfBlock(header: string, attrs: seq<string>)
    requires IsHeader(header) && |header| > |WorktreePrefix|
    requires forall i :: 0 <= i < |attrs| ==> !IsHeader(attrs[i])
    ensures ParseLines([header] + attrs)
            == [WorktreeInfo(header[|WorktreePrefix|..], "bare" in attrs, LastValue(attrs, HeadPrefix),
                             LastValue(attrs, BranchPrefix), "detached" in attrs)]
  {
    var path := header[|WorktreePrefix|..];
    FoldBlock(Start, header, attrs);
    ParseFromState([header] + attrs, ParseState([], DraftOf(path, attrs)));
    FlushDraft(path, attrs);
  }

  lemma ParseFromState(lines: seq<string>, st: ParseState)
    requires Fold(Start, lines) == st
    ensures ParseLines(lines) == st.done + Flush(st.current)
  {
  }

  lemma FlushDraft(path: string, attrs: seq<string>)
    requires path != ""
    ensures Flush(DraftOf(path, attrs))
            == [WorktreeInfo(path, "bare" in attrs, LastValue(attrs, HeadPrefix), LastValue(attrs, BranchPrefix),
                             "detached" in attrs)]
  {
  }

  // How blocks compose

  lemma {:induction false} FoldFromHeader(st: ParseState, b: seq<string>)
    requires |b| > 0 && IsHeader(b[0])
    ensures Fold(st, b) == ParseState(st.done + Flush(st.current) + Fold(Start, b).done, Fold(Start, b).current)
    decreases |b|
  {
    if |b| > 1 {
      var init := b[..|b| - 1];
      assert init[0] == b[0];
      FoldFromHeader(st, init);
      var pre := st.done + Flush(st.current);
      var s0 := Fold(Start, init);
      assert Step(ParseState(pre + s0.done, s0.current), b[|b| - 1])
             == ParseState(pre + Step(s0, b[|b| - 1]).done, Step(s0, b[|b| - 1]).current);
    }
  }

  /** Output that continues with a header parses as the records before it
      followed by the records from it on. */
  lemma {:induction false} ParseConcat(a: seq<string>, b: seq<string>)
    requires |b| > 0 && IsHeader(b[0])
    ensures ParseLines(a + b) == ParseLines(a) + ParseLines(b)
  {
    FoldAppend(Start, a, b);
    FoldFromHeader(Fold(Start, a), b);
    FoldFromHeader(Start, b);
  }

  /** The draft has no path: its fields are never reported. */
  predicate Orphan(st: ParseState) {
    st.done == [] && st.current.worktree.None?
  }

  lemma {:induction false} FoldOrphan(st: ParseState, lines: seq<string>)
    requires Orphan(st)
    ensures Fold(st, lines).done == Fold(Start, lines).done
    ensures Fold(st, lines).current.worktree == Fold(Start, lines).current.worktree
    ensures Fold(st, lines).current.worktree.Some? ==> Fold(st, lines).current == Fold(Start, lines).current
    decreases |lines|
  {
    if |lines| > 0 {
      FoldOrphan(st, lines[..|lines| - 1]);
    }
  }

  lemma {:induction false} FoldNoHeader(lines: seq<string>)
    requires forall i :: 0 <= i < |lines| ==> !IsHeader(lines[i])
    ensures Orphan(Fold(Start, lines))
    decreases |lines|
  {
    if |lines| > 0 {
      FoldNoHeader(lines[..|lines| - 1]);
    }
  }

  /** Lines before the first header produce nothing and do not affect the
      records that follow. */
  lemma {:induction false} LinesBeforeFirstHeaderIgnored(pre: seq<string>, b: seq<string>)
    requires forall i :: 0 <= i < |pre| ==> !IsHeader(pre[i])
    ensures ParseLines(pre + b) == ParseLines(b)
  {
    FoldAppend(Start, pre, b);
    FoldNoHeader(pre);
    FoldOrphan(Fold(Start, pre), b);
  }
}

=== FILE: lifecycle.dfy ===
/** What the lifecycle commands act on and report. The world is the
    registry file, the paths that exist on disk, the branches the commands
    made local and the worktrees that hold a notes file. A command that
    changes the world returns its exit status, the world it leaves and the
    log of external operations it attempted, in order; git's answers reach
    the commands as inputs, so no command reads the branch set. */
module Lifecycle {
  import opened Results
  import Types
  import Tasks
  import Git

  datatype World = World(
    store: Tasks.StoredFile,
    paths: set<string>,
    branches: set<string>,
    notes: set<string>)

  /** The external operations a command may attempt. */
  datatype Effect =
    | ProbeBranch(branch: string)
    | FetchBranch(branch: string)
    | AddWorktreeNewBranch(path: string, branch: string)
    | AddWorktreeExistingBranch(path: string, branch: string)
    | RemoveWorktree(path: string)
    | RemovalWarning(path: string)
    | WriteNotes(path: string)
    | OpenTerminal(path: string)
    | ReadCurrentBranch(path: string)
    | ReadStatus(path: string)

  /** Why a command exits with a failure status. */
  datatype CommandError =
    | NoConfig
    | InvalidName(name: string)
    | TaskDirectoryExists(path: string)
    | TaskNotFound(name: string)
    | WorktreeMissing(path: string)
    | FetchFailed(branch: string)
    | Gateway(gitError: Git.GitError)
    | RegistryFailure(registryError: Tasks.RegistryError)

  /** The exit status, the resulting world and the operations attempted. */
  datatype Run = Run(exit: Outcome<CommandError>, world: World, effects: seq<Effect>)

  /** The registry as the next command will load it. */
  function RegistryOf(w: World): Types.Registry {
    Tasks.Load(w.store)
  }

  predicate IsCreation(e: Effect) {
    e.AddWorktreeNewBranch? || e.AddWorktreeExistingBranch?
  }

  /** How many worktree creations a log holds. */
  function Creations(effects: seq<Effect>): nat {
    if |effects| == 0 then 0
    else (if IsCreation(effects[0]) then 1 else 0) + Creations(effects[1..])
  }

  lemma {:induction false} CreationsAppend(a: seq<Effect>, b: seq<Effect>)
    ensures Creations(a + b) == Creations(a) + Creations(b)
    decreases |a|
  {
    if |a| == 0 {
      assert a + b == b;
    } else {
      assert (a + b)[1..] == a[1..] + b;
      CreationsAppend(a[1..], b);
    }
  }

  lemma CreationsSingle(e: Effect)
    ensures Creations([e]) == (if IsCreation(e) then 1 else 0)
  {
    assert [e][1..] == [];
  }

  /** The operations after a successful creation: notes when they are to be
      written, then the terminal when it is wanted. */
  function Epilogue(path: string, writeNotes: bool, openTerminal: bool): (tail: seq<Effect>)
    ensures Creations(tail) == 0
    ensures WriteNotes(path) in tail <==> writeNotes
    ensures OpenTerminal(path) in tail <==> openTerminal
    ensures forall i :: 0 <= i < |tail| ==> tail[i] == WriteNotes(path) || tail[i] == OpenTerminal(path)
  {
    var notes := if writeNotes then [WriteNotes(path)] else [];
    var term := if openTerminal then [OpenTerminal(path)] else [];
    CreationsSingle(WriteNotes(path));
    CreationsSingle(OpenTerminal(path));
    CreationsAppend(notes, term);
    notes + term
  }

  /** ECMAScript truthiness of an optional string: present and non-empty. */
  predicate Truthy(s: Option<string>) {
    s.Some? && s.value != ""
  }
}

=== FILE: new_command.dfy ===
/** `new <name>`: validate the name, derive the branch, refuse an occupied
    worktree location, create the worktree on the existing branch or on a
    new one, record the task (adopting a record that is already there),
    then write the notes file and open a terminal as configured. */
module NewCommand {
  import opened Results
  import opened Types
  import opened Lifecycle
  import Tasks
  import Git
  import Paths

  /** Letters, digits, hyphen and underscore. */
  predicate IsNameChar(c: char) {
    ('a' <= c <= 'z') || ('A' <= c <= 'Z') || ('0' <= c <= '9') || c == '-' || c == '_'
  }

  /** The whole name matches `^[a-zA-Z0-9-_]+$`: non-empty and made of name
      characters only. */
  predicate ValidName(name: string) {
    |name| > 0 && forall i :: 0 <= i < |name| ==> IsNameChar(name[i])
  }

  /** A valid name holds no path separator, so its worktree location is one
      segment below the tasks directory and names it. */
  lemma ValidNameIsOneSegment(cwd: string, name: string)
    requires ValidName(name)
    ensures '/' !in name
    ensures Paths.BaseName(Tasks.TaskPath(cwd, name)) == name
  {
    assert forall i :: 0 <= i < |name| ==> name[i] != '/';
    Tasks.BaseNameOfTaskPath(cwd, name);
  }

  /** The prefix used when no branch is given. */
  const DefaultPrefix: string := "mcc/"

  /** The configured prefix, or the default when it is unset or empty. */
  function BranchPrefix(cfg: Config): (p: string)
    ensures p != ""
    ensures Truthy(cfg.defaultBranchPrefix) ==> p == cfg.defaultBranchPrefix.value
    ensures !Truthy(cfg.defaultBranchPrefix) ==> p == DefaultPrefix
  {
    if Truthy(cfg.defaultBranchPrefix) then cfg.defaultBranchPrefix.value else DefaultPrefix
  }

  /** The branch of a new task: the one asked for, unless that is absent or
      empty; otherwise the prefix followed by the task name. */
  function BranchFor(name: string, requested: Option<string>, cfg: Config): (b: string)
    ensures b != ""
    ensures Truthy(requested) ==> b == requested.value
    ensures !Truthy(requested) ==> b == BranchPrefix(cfg) + name && b[|b| - |name|..] == name
  {
    if Truthy(requested) then requested.value else BranchPrefix(cfg) + name
  }

  /** The command-line options of `new`. */
  datatype NewOptions = NewOptions(branch: Option<string>, description: Option<string>, open: Option<bool>)

  /** The world after the worktree was created: the location exists and so
      does the branch. */
  function WithWorktree(w: World, path: string, branch: string): World {
    w.(paths := w.paths + {path}, branches := w.branches + {branch})
  }

  /** The last steps once the task is recorded: notes unless generation is
      switched off, then a terminal unless `--no-open`. */
  function Finish(w: World, path: string, cfg: Config, open: Option<bool>, log: seq<Effect>): (r: Run)
    ensures r.exit.Pass?
    ensures r.world.store == w.store && r.world.paths == w.paths && r.world.branches == w.branches
    ensures r.world.notes == (if cfg.autoGenerateNotes != Some(false) then w.notes + {path} else w.notes)
    ensures Creations(r.effects) == Creations(log)
    ensures |r.effects| >= |log| && r.effects[..|log|] == log
    ensures OpenTerminal(path) in r.effects <==> (open != Some(false) || OpenTerminal(path) in log)
    ensures WriteNotes(path) in r.effects <==> (cfg.autoGenerateNotes != Some(false) || WriteNotes(path) in log)
    ensures r.effects == log + Epilogue(path, cfg.autoGenerateNotes != Some(false), open != Some(false))
  {
    var tail := Epilogue(path, cfg.autoGenerateNotes != Some(false), open != Some(false));
    CreationsAppend(log, tail);
    assert (log + tail)[..|log|] == log;
    Run(Pass, w.(notes := if cfg.autoGenerateNotes != Some(false) then w.notes + {path} else w.notes),
        log + tail)
  }

  /** Recording the task once its worktree exists: a fresh record, or the
      record already held under the name, adopted as it is; then finish. */
  function Record(w: World, c: Config, name: string, path: string, branch: string, opts: NewOptions,
                  id: string, now: nat, log: seq<Effect>): (r: Run)
    ensures r.exit.Pass?
    ensures r.world.paths == w.paths && r.world.branches == w.branches
    ensures r.world.notes == (if c.autoGenerateNotes != Some(false) then w.notes + {path} else w.notes)
    ensures var before := RegistryOf(w).tasks;
            var after := RegistryOf(r.world).tasks;
            && RegistryOf(r.world).version == RegistryOf(w).version
            && after.Keys == before.Keys + {name}
            && (forall k :: k in before ==> after[k] == before[k])
            && (name !in before ==> after[name] == Task(id, name, branch, c.mainRepo, now, now,
                                                       opts.description, Active, None))
    ensures name in RegistryOf(w).tasks ==> r.world.store == w.store
    ensures Creations(r.effects) == Creations(log)
    ensures r.effects == log + Epilogue(path, c.autoGenerateNotes != Some(false), opts.open != Some(false))
  {
    var reg := RegistryOf(w);
    match Tasks.CreateTask(reg, id, name, branch, c.mainRepo, opts.description, now)
    case Ok(made) =>
      Tasks.LoadAfterSave(made.registry);
      Finish(w.(store := Tasks.Save(made.registry)), path, c, opts.open, log)
    case Err(e) =>
      if e.AlreadyExists? && Tasks.GetTask(reg, name).Some? then Finish(w, path, c, opts.open, log)
      else Run(Fail(RegistryFailure(e)), w, log)
  }

  /** `new`. `id` and `now` are the generated identifier and the clock;
      `probe` is git's answer to the branch-existence check and `add` its
      answer to the worktree creation. */
  function New(w: World, cwd: string, cfg: Option<Config>, name: string, opts: NewOptions,
               id: string, now: nat, probe: Git.CommandOutcome, add: Git.CommandOutcome): (r: Run)
    // Refusals that happen before anything is touched.
    ensures cfg.None? ==> r == Run(Fail(NoConfig), w, [])
    ensures cfg.Some? && !ValidName(name) ==> r == Run(Fail(InvalidName(name)), w, [])
    ensures cfg.Some? && ValidName(name) && Tasks.TaskPath(cwd, name) in w.paths ==>
              r == Run(Fail(TaskDirectoryExists(Tasks.TaskPath(cwd, name))), w, [])
    // Past those checks exactly one creation is attempted, on the path that
    // matches what git said about the branch.
    ensures cfg.Some? && ValidName(name) && Tasks.TaskPath(cwd, name) !in w.paths ==>
              var path := Tasks.TaskPath(cwd, name);
              var branch := BranchFor(name, opts.branch, cfg.value);
              && |r.effects| >= 2
              && r.effects[0] == ProbeBranch(branch)
              && r.effects[1] == (if probe.Succeeded? then AddWorktreeExistingBranch(path, branch)
                                  else AddWorktreeNewBranch(path, branch))
              && Creations(r.effects) == 1
    // The command succeeds exactly when git's creation does, and a failed
    // creation is reported as git's classified error. A failed probe, of
    // whatever kind, only selects the new-branch creation.
    ensures cfg.Some? && ValidName(name) && Tasks.TaskPath(cwd, name) !in w.paths ==>
              var path := Tasks.TaskPath(cwd, name);
              var branch := BranchFor(name, opts.branch, cfg.value);
              var created := if probe.Succeeded? then Git.ClassifyCreateFromExisting(path, branch, add)
                             else Git.ClassifyCreate(branch, add);
              && (r.exit.Pass? <==> created.Pass?)
              && (created.Fail? ==> r.exit == Fail(Gateway(created.error)))
    // A failed creation leaves the world as it was.
    ensures r.exit.Fail? ==> r.world == w
    // Success: the worktree exists, the task is recorded, fresh or adopted.
    ensures r.exit.Pass? ==>
              var path := Tasks.TaskPath(cwd, name);
              var branch := BranchFor(name, opts.branch, cfg.value);
              var before := RegistryOf(w).tasks;
              var after := RegistryOf(r.world).tasks;
              && cfg.Some? && ValidName(name) && path !in w.paths
              && r.world.paths == w.paths + {path}
              && branch in r.world.branches && w.branches <= r.world.branches
              && after.Keys == before.Keys + {name}
              && (forall k :: k in before ==> after[k] == before[k])
              && (name !in before ==> after[name] == Task(id, name, branch, cfg.value.mainRepo, now, now,
                                                         opts.description, Active, None))
    ensures r.exit.Pass? ==>
              var path := Tasks.TaskPath(cwd, name);
              (path in r.world.notes <==> path in w.notes || cfg.value.autoGenerateNotes != Some(false))
    // Nothing else changes, and the log is exactly the probe, the creation
    // and, after a success, the notes and terminal as configured.
    ensures r.exit.Pass? ==>
              var path := Tasks.TaskPath(cwd, name);
              && r.world.branches == w.branches + {BranchFor(name, opts.branch, cfg.value)}
              && r.world.notes == (if cfg.value.autoGenerateNotes != Some(false) then w.notes + {path} else w.notes)
              && RegistryOf(r.world).version == RegistryOf(w).version
    ensures cfg.Some? && ValidName(name) && Tasks.TaskPath(cwd, name) !in w.paths ==>
              var path := Tasks.TaskPath(cwd, name);
              var branch := BranchFor(name, opts.branch, cfg.value);
              r.effects == [ProbeBranch(branch), if probe.Succeeded? then AddWorktreeExistingBranch(path, branch)
                                                  else AddWorktreeNewBranch(path, branch)]
                           + (if r.exit.Pass? then Epilogue(path, cfg.value.autoGenerateNotes != Some(false),
                                                            opts.open != Some(false))
                              else [])
    // A terminal is opened exactly after a success without `--no-open`, and
    // notes are written exactly after a success with generation on.
    ensures cfg.Some? ==>
              (OpenTerminal(Tasks.TaskPath(cwd, name)) in r.effects <==> r.exit.Pass? && opts.open != Some(false))
    ensures cfg.Some? ==>
              (WriteNotes(Tasks.TaskPath(cwd, name)) in r.effects
               <==> r.exit.Pass? && cfg.value.autoGenerateNotes != Some(false))
  {
    if cfg.None? then Run(Fail(NoConfig), w, [])
    else if !ValidName(name) then Run(Fail(InvalidName(name)), w, [])
    else
      var c := cfg.value;
      var branch := BranchFor(name, opts.branch, c);
      var path := Tasks.TaskPath(cwd, name);
      if path in w.paths then Run(Fail(TaskDirectoryExists(path)), w, [])
      else
        Create(w, c, name, path, branch, opts, id, now, probe, add)
  }

  /** `new` once the name is valid and its location free: probe the
      branch, create the worktree on it or on a new one, record the task,
      then finish. */
  function Create(w: World, c: Config, name: string, path: string, branch: string, opts: NewOptions,
                  id: string, now: nat, probe: Git.CommandOutcome, add: Git.CommandOutcome): (r: Run)
    requires path !in w.paths
    ensures |r.effects| >= 2 && r.effects[0] == ProbeBranch(branch)
    ensures r.effects[1] == (if probe.Succeeded? then AddWorktreeExistingBranch(path, branch)
                             else AddWorktreeNewBranch(path, branch))
    ensures Creations(r.effects) == 1
    ensures var created := if probe.Succeeded? then Git.ClassifyCreateFromExisting(path, branch, add)
                           else Git.ClassifyCreate(branch, add);
            && (r.exit.Pass? <==> created.Pass?)
            && (created.Fail? ==> r.exit == Fail(Gateway(created.error)))
    ensures r.exit.Fail? ==> r.world == w
    ensures r.exit.Pass? ==>
              var before := RegistryOf(w).tasks;
              var after := RegistryOf(r.world).tasks;
              && r.world.paths == w.paths + {path}
              && branch in r.world.branches && w.branches <= r.world.branches
              && after.Keys == before.Keys + {name}
              && (forall k :: k in before ==> after[k] == before[k])
              && (name !in before ==> after[name] == Task(id, name, branch, c.mainRepo, now, now,
                                                         opts.description, Active, None))
              && (path in r.world.notes <==> path in w.notes || c.autoGenerateNotes != Some(false))
    // Nothing else changes: the other branches, the other notes and the
    // registry version stay as they were.
    ensures r.exit.Pass? ==>
              && r.world.branches == w.branches + {branch}
              && r.world.notes == (if c.autoGenerateNotes != Some(false) then w.notes + {path} else w.notes)
              && RegistryOf(r.world).version == RegistryOf(w).version
    // The log is the probe, the creation and, after a success, the notes and
    // terminal as configured.
    ensures r.effects == [ProbeBranch(branch), if probe.Succeeded? then AddWorktreeExistingBranch(path, branch)
                                                else AddWorktreeNewBranch(path, branch)]
                         + (if r.exit.Pass? then Epilogue(path, c.autoGenerateNotes != Some(false), opts.open != Some(false))
                            else [])
    ensures OpenTerminal(path) in r.effects <==> r.exit.Pass? && opts.open != Some(false)
    ensures WriteNotes(path) in r.effects <==> r.exit.Pass? && c.autoGenerateNotes != Some(false)
  {
    var existing := Git.BranchExists(probe);
    var attempt := if existing then AddWorktreeExistingBranch(path, branch) else AddWorktreeNewBranch(path, branch);
    var created := if existing then Git.ClassifyCreateFromExisting(path, branch, add)
                   else Git.ClassifyCreate(branch, add);
    var log := [ProbeBranch(branch), attempt];
    assert Creations(log) == 1 by {
      assert log[1..] == [attempt];
      assert [attempt][1..] == [];
      assert IsCreation(attempt);
      assert Creations([attempt]) == 1;
    }
    assert OpenTerminal(path) !in log && WriteNotes(path) !in log;
    if created.Fail? then Run(Fail(Gateway(created.error)), w, log)
    else Record(WithWorktree(w, path, branch), c, name, path, branch, opts, id, now, log)
  }

  /** Creating the same task twice fails the second time, whatever branch
      is asked for: the worktree location is occupied by then. */
  lemma NewTwiceFails(w: World, cwd: string, cfg: Option<Config>, name: string, opts: NewOptions,
                      id: string, now: nat, probe: Git.CommandOutcome, add: Git.CommandOutcome,
                      opts2: NewOptions, id2: string, now2: nat, probe2: Git.CommandOutcome,
                      add2: Git.CommandOutcome)
    requires New(w, cwd, cfg, name, opts, id, now, probe, add).exit.Pass?
    ensures var w' := New(w, cwd, cfg, name, opts, id, now, probe, add).world;
            var again := New(w', cwd, cfg, name, opts2, id2, now2, probe2, add2);
            again.exit == Fail(TaskDirectoryExists(Tasks.TaskPath(cwd, name))) && again.world == w'
  {
  }

  /** When the registry already holds the name, a successful `new` keeps the
      existing record and does not rewrite the registry file. */
  lemma NewAdoptsExistingRecord(w: World, cwd: string, cfg: Option<Config>, name: string, opts: NewOptions,
                                id: string, now: nat, probe: Git.CommandOutcome, add: Git.CommandOutcome)
    requires name in RegistryOf(w).tasks
    requires New(w, cwd, cfg, name, opts, id, now, probe, add).exit.Pass?
    ensures New(w, cwd, cfg, name, opts, id, now, probe, add).world.store == w.store
  {
  }

  /** Creating "feature-x" in a fresh world with no branch asked for and no
      prefix configured: once git creates the worktree, the registry holds
      exactly that task, on branch "mcc/feature-x", at its canonical
      location. */
  lemma NewFeatureXScenario(cwd: string, repo: string, id: string, now: nat, probe: Git.CommandOutcome,
                            stdout: string)
    ensures var w := World(Tasks.Absent, {}, {}, {});
            var cfg := Config(repo, None, None);
            var r := New(w, cwd, Some(cfg), "feature-x", NewOptions(None, None, Some(false)), id, now, probe,
                         Git.Succeeded(stdout));
            && r.exit.Pass?
            && RegistryOf(r.world).tasks.Keys == {"feature-x"}
            && RegistryOf(r.world).tasks["feature-x"].branch == "mcc/feature-x"
            && Tasks.TaskPath(cwd, "feature-x") in r.world.paths
  {
    var name := "feature-x";
    assert ValidName(name) by {
      forall i | 0 <= i < |name| ensures IsNameChar(name[i]) {
      }
    }
    var w := World(Tasks.Absent, {}, {}, {});
    var cfg := Config(repo, None, None);
    var branch := BranchFor(name, None, cfg);
    assert branch == "mcc/feature-x";
    var path := Tasks.TaskPath(cwd, name);
    var created := if probe.Succeeded? then Git.ClassifyCreateFromExisting(path, branch, Git.Succeeded(stdout))
                   else Git.ClassifyCreate(branch, Git.Succeeded(stdout));
    assert created.Pass?;
    var r := New(w, cwd, Some(cfg), name, NewOptions(None, None, Some(false)), id, now, probe, Git.Succeeded(stdout));
    assert r.exit.Pass?;
    assert RegistryOf(w).tasks == map[];
  }

  /** A name outside `^[a-zA-Z0-9-_]+$`, such as "bad name!", is refused
      before any git or filesystem operation. */
  lemma NewRejectsBadName(w: World, cwd: string, cfg: Config, opts: NewOptions, id: string, now: nat,
                          probe: Git.CommandOutcome, add: Git.CommandOutcome)
    ensures New(w, cwd, Some(cfg), "bad name!", opts, id, now, probe, add) == Run(Fail(InvalidName("bad name!")), w, [])
  {
    assert !IsNameChar("bad name!"[3]);
  }
}

=== FILE: open_command.dfy ===
/** `open <name>`: record the access and open a terminal in an existing
    worktree. Unlike `resume`, it never recreates a missing one. */
module OpenCommand {
  import opened Results
  import opened Types
  import opened Lifecycle
  import Tasks
  import Git
  import ResumeCommand

  /** `open`, at time `now`. */
  function Open(w: World, cwd: string, cfg: Option<Config>, name: string, now: nat): (r: Run)
    // It succeeds exactly when configured, the task is known and its
    // worktree exists; otherwise nothing changes.
    ensures r.exit.Pass? <==> cfg.Some? && name in RegistryOf(w).tasks && Tasks.TaskPath(cwd, name) in w.paths
    ensures r.exit.Fail? ==> r.world == w && r.effects == []
    ensures cfg.Some? && name in RegistryOf(w).tasks && Tasks.TaskPath(cwd, name) !in w.paths ==>
              r.exit == Fail(WorktreeMissing(Tasks.TaskPath(cwd, name)))
    // Only the registry changes, and only the opened record, which becomes
    // the active, most recently accessed one with its identity kept.
    ensures r.world.paths == w.paths && r.world.branches == w.branches && r.world.notes == w.notes
    ensures r.exit.Pass? ==>
              var before := RegistryOf(w).tasks;
              var after := RegistryOf(r.world).tasks;
              && after.Keys == before.Keys
              && (forall k :: k in before && k != name ==> after[k] == before[k])
              && after[name].status == Active && after[name].lastAccessed == now
              && after[name].(status := before[name].status, lastAccessed := before[name].lastAccessed) == before[name]
              && r.effects == [OpenTerminal(Tasks.TaskPath(cwd, name))]
  {
    if cfg.None? then Run(Fail(NoConfig), w, [])
    else
      var reg := RegistryOf(w);
      match Tasks.GetTask(reg, name)
      case None => Run(Fail(TaskNotFound(name)), w, [])
      case Some(task) =>
        var path := Tasks.TaskPath(cwd, name);
        if path !in w.paths then Run(Fail(WorktreeMissing(path)), w, [])
        else
          match Tasks.UpdateTask(reg, name, Tasks.Refresh(now))
          case Ok(next) =>
            Tasks.RefreshKeepsIdentity(task, now);
            Run(Pass, w.(store := Tasks.Save(next)), [OpenTerminal(path)])
          case Err(e) => Run(Fail(RegistryFailure(e)), w, [])
  }

  /** Where the worktree exists, `open` and `resume` (without `--no-open`)
      do the same thing: the same world and the same single terminal. */
  lemma OpenAgreesWithResume(w: World, cwd: string, cfg: Config, name: string, now: nat,
                             probe: Git.CommandOutcome, fetch: Git.CommandOutcome, add: Git.CommandOutcome,
                             notes: bool)
    requires Tasks.TaskPath(cwd, name) in w.paths
    ensures var o := Open(w, cwd, Some(cfg), name, now);
            var r := ResumeCommand.Resume(w, cwd, Some(cfg), name, None, now, probe, fetch, add, notes);
            o.exit.Pass? <==> r.exit.Pass?
    ensures var o := Open(w, cwd, Some(cfg), name, now);
            var r := ResumeCommand.Resume(w, cwd, Some(cfg), name, None, now, probe, fetch, add, notes);
            o.exit.Pass? ==> o.world == r.world && o.effects == r.effects
  {
  }

  /** Opening is idempotent at a fixed time: a second `open` finds the
      record already refreshed and leaves the world as the first left it. */
  lemma OpenIdempotent(w: World, cwd: string, cfg: Option<Config>, name: string, now: nat)
    requires Open(w, cwd, cfg, name, now).exit.Pass?
    ensures var once := Open(w, cwd, cfg, name, now);
            Open(once.world, cwd, cfg, name, now) == once
  {
    var once := Open(w, cwd, cfg, name, now);
    var t := RegistryOf(w).tasks[name];
    Tasks.MergeLaws(t, Tasks.Refresh(now), Tasks.Refresh(now));
    var reg1 := RegistryOf(once.world);
    assert reg1.tasks[name] == Tasks.Merge(t, Tasks.Refresh(now));
    assert reg1.tasks[name := Tasks.Merge(reg1.tasks[name], Tasks.Refresh(now))] == reg1.tasks;
  }
}

=== FILE: paths.dfy ===
/** The two pieces of POSIX path handling the model needs: joining a
    directory and a segment, and the last segment of a path. */
module Paths {

  /** `dir` and `segment` joined by exactly one separator, as `path.join`
      does for a normalised directory and a separator-free segment. */
  function JoinPath(dir: string, segment: string): string {
    if |dir| > 0 && dir[|dir| - 1] == '/' then dir + segment else dir + "/" + segment
  }

  /** Node's posix `path.basename`: trailing separators are ignored, then
      the result is everything after the final separator. */
  function BaseName(p: string): (b: string)
    ensures '/' !in b
    decreases |p|
  {
    if |p| > 0 && p[|p| - 1] == '/' then BaseName(p[..|p| - 1]) else LastSegment(p)
  }

  /** Everything after the final separator of a path. */
  function LastSegment(p: string): (b: string)
    ensures '/' !in b
    decreases |p|
  {
    if |p| == 0 || p[|p| - 1] == '/' then "" else LastSegment(p[..|p| - 1]) + [p[|p| - 1]]
  }

  /** Trailing separators do not count: the base name of `d/` is `d`, and a
      path of separators only has an empty base name. */
  lemma BaseNameIgnoresTrailingSeparators(p: string)
    requires |p| > 0 && p[|p| - 1] != '/'
    ensures BaseName(p + "/") == BaseName(p)
    ensures BaseName(p + "//") == BaseName(p)
    ensures BaseName("/") == "" && BaseName("//") == ""
  {
    assert (p + "/")[..|p|] == p;
    assert (p + "//")[..|p| + 1] == p + "/";
    assert "//"[..1] == "/";
    assert "/"[..0] == "";
  }

  /** A non-empty, separator-free segment placed after a separator is the
      base name. */
  lemma BaseNameAfterSeparator(dir: string, name: string)
    requires |name| > 0 && '/' !in name
    ensures BaseName(dir + "/" + name) == name
  {
    LastSegmentAfterSeparator(dir, name);
  }

  lemma {:induction false} LastSegmentAfterSeparator(dir: string, name: string)
    requires '/' !in name
    ensures LastSegment(dir + "/" + name) == name
    decreases |name|
  {
    var p := dir + "/" + name;
    if |name| > 0 {
      var init := name[..|name| - 1];
      assert p[..|p| - 1] == dir + "/" + init;
      LastSegmentAfterSeparator(dir, init);
      assert name == init + [name[|name| - 1]];
    }
  }
}

=== FILE: results.dfy ===
/** Failure-carrying wrappers shared by the whole model: an optional value and
    the success/failure result every registry, gateway and command operation
    returns instead of throwing. */
module Results {

  /** A value that may be absent (the source's `undefined` or `null`). */
  datatype Option<+T> = None | Some(value: T) {

    /** The wrapped value, or `default` when there is none. */
    function GetOr(default: T): T {
      match this
      case Some(v) => v
      case None => default
    }
  }

  /** Either a value or the error that prevented it. */
  datatype Result<+T, +E> = Ok(value: T) | Err(error: E)

  /** Success without a value, or the error that occurred. */
  datatype Outcome<+E> = Pass | Fail(error: E)
}

=== FILE: resume_command.dfy ===
/** `resume <name>`: make sure the task's worktree exists, then behave like
    `open`. An existing worktree is left alone; a missing one is recreated
    on the task's recorded branch, fetching that branch first when it is not
    present locally. A new branch is never created. */
module ResumeCommand {
  import opened Results
  import opened Types
  import opened Lifecycle
  import Tasks
  import Git

  /** The tail of a resume once the worktree exists: record the access and
      open a terminal unless `--no-open`. */
  function Reopen(w: World, reg: Registry, name: string, path: string, open: Option<bool>, now: nat,
                  log: seq<Effect>): (r: Run)
    requires name in reg.tasks
    ensures r.exit.Pass?
    ensures r.world == w.(store := Tasks.Save(reg.(tasks := reg.tasks[name := Tasks.Merge(reg.tasks[name], Tasks.Refresh(now))])))
    ensures Creations(r.effects) == Creations(log)
    // The log only grows, by the terminal exactly when it is wanted.
    ensures |log| <= |r.effects| <= |log| + 1 && r.effects[..|log|] == log
    ensures (|r.effects| == |log| + 1 <==> open != Some(false))
    ensures |r.effects| == |log| + 1 ==> r.effects[|log|] == OpenTerminal(path)
  {
    var updated := Tasks.UpdateTask(reg, name, Tasks.Refresh(now));
    var term := if open != Some(false) then [OpenTerminal(path)] else [];
    CreationsAppend(log, term);
    Run(Pass, w.(store := Tasks.Save(updated.value)), log + term)
  }

  /** `resume`. `probe` is git's answer to the local-branch check, `fetch`
      its answer to fetching the branch from the remote and `add` its answer
      to the worktree creation; each is consulted only when the command gets
      that far. `branchHasNotes` says whether the recorded branch tracks a
      notes file, so that checking it out brings one along. */
  function Resume(w: World, cwd: string, cfg: Option<Config>, name: string, open: Option<bool>, now: nat,
                  probe: Git.CommandOutcome, fetch: Git.CommandOutcome, add: Git.CommandOutcome,
                  branchHasNotes: bool): (r: Run)
    // Unknown tasks change nothing.
    ensures cfg.None? || name !in RegistryOf(w).tasks ==> r.exit.Fail? && r.world == w && r.effects == []
    // No new branch, ever; any creation is on the recorded branch at the
    // task's location.
    ensures forall e :: e in r.effects ==> !e.AddWorktreeNewBranch?
    ensures forall e :: e in r.effects && e.AddWorktreeExistingBranch? ==>
              e == AddWorktreeExistingBranch(Tasks.TaskPath(cwd, name), RegistryOf(w).tasks[name].branch)
    ensures Creations(r.effects) <= 1
    ensures r.world.branches <= w.branches + (if name in RegistryOf(w).tasks then {RegistryOf(w).tasks[name].branch} else {})
    ensures w.paths <= r.world.paths <= w.paths + {Tasks.TaskPath(cwd, name)}
    // After a successful resume the worktree is there.
    ensures r.exit.Pass? ==> Tasks.TaskPath(cwd, name) in r.world.paths
    // An existing worktree: no git call at all. Without `--no-open` the
    // record is refreshed and a terminal opened; with it nothing changes.
    ensures cfg.Some? && name in RegistryOf(w).tasks && Tasks.TaskPath(cwd, name) in w.paths ==>
              var reg := RegistryOf(w);
              && r.exit.Pass?
              && (open == Some(false) ==> r == Run(Pass, w, []))
              && (open != Some(false) ==>
                    && r.world == w.(store := Tasks.Save(reg.(tasks := reg.tasks[name := Tasks.Merge(reg.tasks[name], Tasks.Refresh(now))])))
                    && r.effects == [OpenTerminal(Tasks.TaskPath(cwd, name))])
    // A missing worktree: the branch is probed first. A failed probe, of
    // whatever kind, leads to a fetch and never to an error of its own.
    // Unless the fetch fails, exactly one creation follows, and the command
    // succeeds exactly when git's creation does.
    ensures cfg.Some? && name in RegistryOf(w).tasks && Tasks.TaskPath(cwd, name) !in w.paths ==>
              var path := Tasks.TaskPath(cwd, name);
              var branch := RegistryOf(w).tasks[name].branch;
              var created := Git.ClassifyCreateFromExisting(path, branch, add);
              && |r.effects| >= 1 && r.effects[0] == ProbeBranch(branch)
              && (FetchBranch(branch) in r.effects <==> probe.Failed?)
              && (probe.Failed? && fetch.Failed? ==>
                    r == Run(Fail(FetchFailed(branch)), w, [ProbeBranch(branch), FetchBranch(branch)]))
              && (!(probe.Failed? && fetch.Failed?) ==>
                    && Creations(r.effects) == 1
                    && (r.exit.Pass? <==> created.Pass?)
                    && (created.Fail? ==> r.exit == Fail(Gateway(created.error)) && r.world.store == w.store))
    // Recreating keeps every branch, and leaves the paths and notes alone
    // unless it succeeds; a success adds notes only at the task's location.
    ensures cfg.Some? && name in RegistryOf(w).tasks && Tasks.TaskPath(cwd, name) !in w.paths ==>
              var path := Tasks.TaskPath(cwd, name);
              && w.branches <= r.world.branches
              && (r.exit.Fail? ==> r.world.paths == w.paths && r.world.notes == w.notes)
              && (r.exit.Pass? ==>
                    r.world.notes == (if cfg.value.autoGenerateNotes != Some(false) || branchHasNotes
                                      then w.notes + {path} else w.notes))
    // Notes are written exactly when a worktree was recreated, generation is
    // on and the checked-out branch brought no notes file of its own.
    ensures forall e :: e in r.effects && e.WriteNotes? ==> e == WriteNotes(Tasks.TaskPath(cwd, name))
    ensures WriteNotes(Tasks.TaskPath(cwd, name)) in r.effects
            <==> && r.exit.Pass? && Tasks.TaskPath(cwd, name) !in w.paths
                 && cfg.value.autoGenerateNotes != Some(false) && !branchHasNotes
    // On success the record is refreshed (unless an existing worktree was
    // merely looked at with `--no-open`) and nothing else in the registry
    // changes.
    ensures r.exit.Pass? ==>
              var before := RegistryOf(w).tasks;
              var after := RegistryOf(r.world).tasks;
              && name in before && after.Keys == before.Keys
              && (forall k :: k in before && k != name ==> after[k] == before[k])
              && after[name].branch == before[name].branch
              && (r.world != w ==> after[name].status == Active && after[name].lastAccessed == now)
              && (Tasks.TaskPath(cwd, name) !in w.paths ==> after[name].status == Active && after[name].lastAccessed == now)
              // The refresh is what is written, and it changes nothing but
              // status and lastAccessed.
              && (r.world != w ==>
                    r.world.store == Tasks.Save(RegistryOf(w).(tasks := before[name := Tasks.Merge(before[name], Tasks.Refresh(now))])))
              && (r.world != w ==> after[name] == Tasks.Merge(before[name], Tasks.Refresh(now)))
              && (r.world != w ==>
                    after[name].(status := before[name].status, lastAccessed := before[name].lastAccessed) == before[name])
  {
    if cfg.None? then Run(Fail(NoConfig), w, [])
    else
      var c := cfg.value;
      var reg := RegistryOf(w);
      match Tasks.GetTask(reg, name)
      case None => Run(Fail(TaskNotFound(name)), w, [])
      case Some(task) =>
        var path := Tasks.TaskPath(cwd, name);
        if path in w.paths then
          if open != Some(false) then Reopen(w, reg, name, path, open, now, [])
          else Run(Pass, w, [])
        else Recreate(w, c, reg, name, path, open, now, probe, fetch, add, branchHasNotes)
  }

  /** The part of `resume` that recreates a missing worktree: probe the
      branch, fetch it when it is not local, attach a worktree to it, write
      notes unless the checkout brought some, then refresh the record. */
  function Recreate(w: World, c: Config, reg: Registry, name: string, path: string, open: Option<bool>,
                    now: nat, probe: Git.CommandOutcome, fetch: Git.CommandOutcome, add: Git.CommandOutcome,
                    branchHasNotes: bool)
    : (r: Run)
    requires name in reg.tasks && path !in w.paths
    ensures forall e :: e in r.effects ==> !e.AddWorktreeNewBranch?
    ensures forall e :: e in r.effects && e.AddWorktreeExistingBranch? ==>
              e == AddWorktreeExistingBranch(path, reg.tasks[name].branch)
    ensures Creations(r.effects) <= 1
    ensures w.branches <= r.world.branches <= w.branches + {reg.tasks[name].branch}
    ensures w.paths <= r.world.paths <= w.paths + {path}
    // The probe comes first; a failed probe means a fetch.
    ensures |r.effects| >= 1 && r.effects[0] == ProbeBranch(reg.tasks[name].branch)
    ensures FetchBranch(reg.tasks[name].branch) in r.effects <==> probe.Failed?
    ensures probe.Failed? && fetch.Failed? ==>
              r == Run(Fail(FetchFailed(reg.tasks[name].branch)), w,
                       [ProbeBranch(reg.tasks[name].branch), FetchBranch(reg.tasks[name].branch)])
    // Otherwise one creation, whose outcome is the command's.
    ensures !(probe.Failed? && fetch.Failed?) ==>
              var created := Git.ClassifyCreateFromExisting(path, reg.tasks[name].branch, add);
              && Creations(r.effects) == 1
              && (r.exit.Pass? <==> created.Pass?)
              && (created.Fail? ==> r.exit == Fail(Gateway(created.error)))
    ensures r.exit.Fail? ==> r.world.store == w.store && r.world.paths == w.paths && r.world.notes == w.notes
    // Success: the worktree exists, holds notes when generation is on or
    // the branch brought them, and the record is refreshed.
    ensures r.exit.Pass? ==>
              && path in r.world.paths
              && r.world.notes == (if c.autoGenerateNotes != Some(false) || branchHasNotes then w.notes + {path} else w.notes)
              && r.world.store == Tasks.Save(reg.(tasks := reg.tasks[name := Tasks.Merge(reg.tasks[name], Tasks.Refresh(now))]))
              && (OpenTerminal(path) in r.effects <==> open != Some(false))
    ensures forall e :: e in r.effects && e.WriteNotes? ==> e == WriteNotes(path)
    ensures WriteNotes(path) in r.effects <==> r.exit.Pass? && c.autoGenerateNotes != Some(false) && !branchHasNotes
  {
    var branch := reg.tasks[name].branch;
    if probe.Failed? && fetch.Failed? then
      CreationsSingle(ProbeBranch(branch));
      CreationsSingle(FetchBranch(branch));
      CreationsAppend([ProbeBranch(branch)], [FetchBranch(branch)]);
      Run(Fail(FetchFailed(branch)), w, [ProbeBranch(branch), FetchBranch(branch)])
    else Checkout(w, c, reg, name, path, open, now, probe, add, branchHasNotes)
  }

  /** Recreating a missing worktree once the branch is known to be local,
      or was fetched after a failed probe. */
  function Checkout(w: World, c: Config, reg: Registry, name: string, path: string, open: Option<bool>,
                    now: nat, probe: Git.CommandOutcome, add: Git.CommandOutcome, branchHasNotes: bool)
    : (r: Run)
    requires name in reg.tasks && path !in w.paths
    ensures forall e :: e in r.effects ==> !e.AddWorktreeNewBranch?
    ensures forall e :: e in r.effects && e.AddWorktreeExistingBranch? ==>
              e == AddWorktreeExistingBranch(path, reg.tasks[name].branch)
    ensures w.branches <= r.world.branches <= w.branches + {reg.tasks[name].branch}
    ensures w.paths <= r.world.paths <= w.paths + {path}
    ensures |r.effects| >= 1 && r.effects[0] == ProbeBranch(reg.tasks[name].branch)
    ensures FetchBranch(reg.tasks[name].branch) in r.effects <==> probe.Failed?
    ensures var created := Git.ClassifyCreateFromExisting(path, reg.tasks[name].branch, add);
            && Creations(r.effects) == 1
            && (r.exit.Pass? <==> created.Pass?)
            && (created.Fail? ==> r.exit == Fail(Gateway(created.error)))
    ensures r.exit.Fail? ==> r.world.store == w.store && r.world.paths == w.paths && r.world.notes == w.notes
    ensures r.exit.Pass? ==>
              && path in r.world.paths
              && r.world.notes == (if c.autoGenerateNotes != Some(false) || branchHasNotes then w.notes + {path} else w.notes)
              && r.world.store == Tasks.Save(reg.(tasks := reg.tasks[name := Tasks.Merge(reg.tasks[name], Tasks.Refresh(now))]))
              && (OpenTerminal(path) in r.effects <==> open != Some(false))
    ensures forall e :: e in r.effects && e.WriteNotes? ==> e == WriteNotes(path)
    ensures WriteNotes(path) in r.effects <==> r.exit.Pass? && c.autoGenerateNotes != Some(false) && !branchHasNotes
  {
    var branch := reg.tasks[name].branch;
    var probed := [ProbeBranch(branch)];
    var fetchLog := probed + [FetchBranch(branch)];
    assert Creations(fetchLog) == 0 by {
      CreationsSingle(ProbeBranch(branch));
      CreationsSingle(FetchBranch(branch));
      CreationsAppend(probed, [FetchBranch(branch)]);
    }
    if probe.Succeeded? then Attach(w, c, reg, name, path, open, now, add, branchHasNotes, probed)
    else Attach(w.(branches := w.branches + {branch}), c, reg, name, path, open, now, add, branchHasNotes, fetchLog)
  }

  /** What a log of probe and fetch, a creation and an epilogue holds. */
  lemma AttachedLog(log: seq<Effect>, pre: seq<Effect>, attempt: Effect, tail: seq<Effect>, path: string)
    requires |pre| >= 1 && attempt.AddWorktreeExistingBranch? && log == pre + [attempt] + tail
    requires forall i :: 0 <= i < |pre| ==> pre[i].ProbeBranch? || pre[i].FetchBranch?
    requires forall i :: 0 <= i < |tail| ==> tail[i] == WriteNotes(path) || tail[i] == OpenTerminal(path)
    ensures log[0] == pre[0]
    ensures forall e :: e in log ==> !e.AddWorktreeNewBranch?
    ensures forall e :: e in log && e.AddWorktreeExistingBranch? ==> e == attempt
    ensures forall e :: e in log && (e.ProbeBranch? || e.FetchBranch?) ==> e in pre
    ensures forall e :: e in pre ==> e in log
    ensures forall e :: e in log && e.WriteNotes? ==> e == WriteNotes(path)
    ensures WriteNotes(path) in log <==> WriteNotes(path) in tail
    ensures OpenTerminal(path) in log <==> OpenTerminal(path) in tail
  {
  }

  /** Attaching a worktree to the recorded branch once it is local, after the
      operations in `log`: write notes unless the checkout brought some, then
      refresh the record. */
  function Attach(w: World, c: Config, reg: Registry, name: string, path: string, open: Option<bool>,
                  now: nat, add: Git.CommandOutcome, branchHasNotes: bool, log: seq<Effect>): (r: Run)
    requires name in reg.tasks && path !in w.paths && Creations(log) == 0
    requires |log| >= 1 && forall i :: 0 <= i < |log| ==> log[i].ProbeBranch? || log[i].FetchBranch?
    ensures var created := Git.ClassifyCreateFromExisting(path, reg.tasks[name].branch, add);
            && (r.exit.Pass? <==> created.Pass?)
            && (created.Fail? ==> r.exit == Fail(Gateway(created.error)) && r.world == w)
    ensures Creations(r.effects) == 1
    // The log keeps what came before, then holds the one creation and at
    // most the notes and the terminal.
    ensures |r.effects| >= 1 && r.effects[0] == log[0]
    ensures forall e :: e in log ==> e in r.effects
    ensures forall e :: e in r.effects && (e.ProbeBranch? || e.FetchBranch?) ==> e in log
    ensures forall e :: e in r.effects ==> !e.AddWorktreeNewBranch?
    ensures forall e :: e in r.effects && e.AddWorktreeExistingBranch? ==>
              e == AddWorktreeExistingBranch(path, reg.tasks[name].branch)
    ensures forall e :: e in r.effects && e.WriteNotes? ==> e == WriteNotes(path)
    ensures WriteNotes(path) in r.effects <==> r.exit.Pass? && c.autoGenerateNotes != Some(false) && !branchHasNotes
    ensures OpenTerminal(path) in r.effects <==> r.exit.Pass? && open != Some(false)
    ensures r.exit.Pass? ==>
              && r.world.paths == w.paths + {path} && r.world.branches == w.branches
              && r.world.notes == (if c.autoGenerateNotes != Some(false) || branchHasNotes then w.notes + {path} else w.notes)
              && r.world.store == Tasks.Save(reg.(tasks := reg.tasks[name := Tasks.Merge(reg.tasks[name], Tasks.Refresh(now))]))
  {
    var branch := reg.tasks[name].branch;
    var attempt := log + [AddWorktreeExistingBranch(path, branch)];
    assert Creations(attempt) == 1 by {
      CreationsAppend(log, [AddWorktreeExistingBranch(path, branch)]);
      CreationsSingle(AddWorktreeExistingBranch(path, branch));
    }
    match Git.ClassifyCreateFromExisting(path, branch, add)
    case Fail(e) =>
      AttachedLog(attempt, log, AddWorktreeExistingBranch(path, branch), [], path);
      Run(Fail(Gateway(e)), w, attempt)
    case Pass =>
      var writeNotes := c.autoGenerateNotes != Some(false) && !branchHasNotes;
      var notes := if writeNotes then [WriteNotes(path)] else [];
      var w2 := w.(paths := w.paths + {path},
                   notes := if writeNotes || branchHasNotes then w.notes + {path} else w.notes);
      CreationsAppend(attempt, notes);
      var r := Reopen(w2, reg, name, path, open, now, attempt + notes);
      var tail := Epilogue(path, writeNotes, open != Some(false));
      assert r.effects == attempt + tail;
      AttachedLog(r.effects, log, AddWorktreeExistingBranch(path, branch), tail, path);
      r
  }

  /** Resuming twice is resuming once: after a successful resume the
      worktree exists, so a second resume at the same moment creates
      nothing and leaves the world exactly as the first one left it. */
  lemma ResumeIdempotent(w: World, cwd: string, cfg: Option<Config>, name: string, open: Option<bool>,
                         open2: Option<bool>, now: nat, probe: Git.CommandOutcome, fetch: Git.CommandOutcome,
                         add: Git.CommandOutcome, notes: bool, probe2: Git.CommandOutcome,
                         fetch2: Git.CommandOutcome, add2: Git.CommandOutcome, notes2: bool)
    requires Resume(w, cwd, cfg, name, open, now, probe, fetch, add, notes).exit.Pass?
    requires Resume(w, cwd, cfg, name, open, now, probe, fetch, add, notes).world != w || open2 == Some(false)
    ensures var first := Resume(w, cwd, cfg, name, open, now, probe, fetch, add, notes);
            var second := Resume(first.world, cwd, cfg, name, open2, now, probe2, fetch2, add2, notes2);
            && second.exit.Pass?
            && second.world == first.world
            && Creations(second.effects) == 0
  {
    var first := Resume(w, cwd, cfg, name, open, now, probe, fetch, add, notes);
    var path := Tasks.TaskPath(cwd, name);
    assert cfg.Some? && name in RegistryOf(w).tasks;
    assert path in first.world.paths;
    var reg1 := RegistryOf(first.world);
    assert name in reg1.tasks;
    var second := Resume(first.world, cwd, cfg, name, open2, now, probe2, fetch2, add2, notes2);
    if open2 == Some(false) {
      assert second == Run(Pass, first.world, []);
    } else {
      var t := RegistryOf(w).tasks[name];
      var t1 := reg1.tasks[name];
      var stored := RegistryOf(w).(tasks := RegistryOf(w).tasks[name := Tasks.Merge(t, Tasks.Refresh(now))]);
      assert first.world.store == Tasks.Save(stored);
      Tasks.LoadAfterSave(stored);
      assert reg1 == stored;
      Tasks.MergeLaws(t, Tasks.Refresh(now), Tasks.Refresh(now));
      assert t1 == Tasks.Merge(t, Tasks.Refresh(now));
      assert reg1.(tasks := reg1.tasks[name := Tasks.Merge(t1, Tasks.Refresh(now))]) == reg1;
      assert second.world == first.world.(store := Tasks.Save(reg1));
      assert second.effects == [OpenTerminal(path)];
      CreationsSingle(OpenTerminal(path));
    }
  }
}

=== FILE: status_command.dfy ===
/** `status [name]`: for one task, its record, whether the worktree's branch
    drifted from the recorded one and whether its tree is clean; without a
    name, a one-line summary per active task. Reading never changes the
    world. */
module StatusCommand {
  import opened Results
  import opened Types
  import opened Lifecycle
  import Tasks
  import Git
  import Text

  /** What `git status --short` said about a worktree. */
  datatype TreeState = Clean | Dirty(listing: string) | StatusUnreadable(message: string)

  /** What inspecting one task's worktree found. */
  datatype Inspection =
    | WorktreeNotFound
    | BranchUnreadable(message: string)
    | Inspected(drift: Option<string>, tree: TreeState)

  /** The report for one task and the git queries made for it, in order. */
  datatype TaskReport = TaskReport(task: Task, inspection: Inspection, queries: seq<Effect>)

  /** The tree state for git's answer to the status query. */
  function TreeOf(status: Git.CommandOutcome): (s: TreeState)
    ensures status.Failed? <==> s.StatusUnreadable?
    ensures status.Failed? ==> s == StatusUnreadable(status.message)
    ensures status.Succeeded? ==> (s.Clean? <==> Text.AllSpace(status.stdout))
    ensures s.Dirty? ==> status.Succeeded? && s.listing == status.stdout
  {
    match status
    case Failed(_, message) => StatusUnreadable(message)
    case Succeeded(out) =>
      Text.TrimEmptyIff(out);
      if Text.Trim(out) != "" then Dirty(out) else Clean
  }

  /** `status <name>`. `branchOf` and `statusOf` are git's answers to
      `branch --show-current` and `status --short` in a given directory. */
  function ShowTaskStatus(w: World, cwd: string, name: string,
                          branchOf: string -> Git.CommandOutcome,
                          statusOf: string -> Git.CommandOutcome): (r: Result<TaskReport, CommandError>)
    ensures r.Err? <==> name !in RegistryOf(w).tasks
    ensures r.Err? ==> r.error == TaskNotFound(name)
    ensures r.Ok? ==>
              var path := Tasks.TaskPath(cwd, name);
              var task := RegistryOf(w).tasks[name];
              var rep := r.value;
              && rep.task == task
              // No worktree, no git query.
              && (rep.inspection.WorktreeNotFound? <==> path !in w.paths)
              && (path !in w.paths ==> rep.queries == [])
              // Otherwise the branch is read first; its failure ends the
              // inspection.
              && (path in w.paths ==>
                    && |rep.queries| >= 1 && rep.queries[0] == ReadCurrentBranch(path)
                    && (rep.inspection.BranchUnreadable? <==> branchOf(path).Failed?)
                    && (branchOf(path).Failed? ==> rep.queries == [ReadCurrentBranch(path)])
                    && (branchOf(path).Failed? ==> rep.inspection == BranchUnreadable(branchOf(path).message)))
              // Drift is reported exactly when the trimmed current branch
              // differs from the recorded one, and names it.
              && (rep.inspection.Inspected? ==>
                    && branchOf(path).Succeeded?
                    && rep.queries == [ReadCurrentBranch(path), ReadStatus(path)]
                    && (rep.inspection.drift.Some? <==> Text.Trim(branchOf(path).stdout) != task.branch)
                    && (rep.inspection.drift.Some? ==> rep.inspection.drift.value == Text.Trim(branchOf(path).stdout))
                    && rep.inspection.tree == TreeOf(statusOf(path)))
  {
    match Tasks.GetTask(RegistryOf(w), name)
    case None => Err(TaskNotFound(name))
    case Some(task) =>
      var path := Tasks.TaskPath(cwd, name);
      if path !in w.paths then Ok(TaskReport(task, WorktreeNotFound, []))
      else
        match branchOf(path)
        case Failed(_, message) => Ok(TaskReport(task, BranchUnreadable(message), [ReadCurrentBranch(path)]))
        case Succeeded(out) =>
          var current := Text.Trim(out);
          var drift := if current != task.branch then Some(current) else None;
          Ok(TaskReport(task, Inspected(drift, TreeOf(statusOf(path))), [ReadCurrentBranch(path), ReadStatus(path)]))
  }

  /** The one-line summary of an active task. */
  datatype Summary = NotFoundLocally | CleanTree | Changes(files: nat) | Unavailable

  /** One line of the overview: the task and its summary. */
  datatype Row = Row(task: Task, summary: Summary)

  /** The summary of a worktree given whether it exists and git's answer to
      the status query there. The number of changed files is the number of
      lines of the trimmed listing. */
  function Summarize(exists_: bool, status: Git.CommandOutcome): (s: Summary)
    ensures !exists_ <==> s.NotFoundLocally?
    ensures exists_ ==> (s.Unavailable? <==> status.Failed?)
    ensures exists_ && status.Succeeded? ==> (s.CleanTree? <==> Text.AllSpace(status.stdout))
    ensures s.Changes? ==> status.Succeeded? && s.files == Text.Count(Text.Trim(status.stdout), '\n') + 1
  {
    if !exists_ then NotFoundLocally
    else
      match status
      case Failed(_, _) => Unavailable
      case Succeeded(out) =>
        var trimmed := Text.Trim(out);
        Text.TrimEmptyIff(out);
        if trimmed != "" then Changes(|Text.Split(trimmed, '\n')|) else CleanTree
  }

  /** `git status --short` prints one line per changed file, each ended by a
      newline and each holding a status code or path that is not white
      space. For such output the summary counts exactly those lines, even
      though trimming eats the leading blanks of the first status code. */
  lemma {:induction false} ChangesCountLines(lines: seq<string>)
    requires |lines| >= 1
    requires forall i :: 0 <= i < |lines| ==> '\n' !in lines[i] && !Text.AllSpace(lines[i])
    ensures Summarize(true, Git.Succeeded(Text.Join(lines, '\n') + "\n")) == Changes(|lines|)
  {
    var j := Text.Join(lines, '\n');
    var out := j + "\n";
    var r := Text.Trim(out);
    assert r != [] && Text.Count(r, '\n') == |lines| - 1 by {
      NewlinesInside(lines, j, out, r);
    }
    assert |Text.Split(r, '\n')| == |lines|;
  }

  /** The newlines that survive trimming a status listing: all but the
      last. */
  lemma {:induction false} NewlinesInside(lines: seq<string>, j: string, out: string, r: string)
    requires |lines| >= 1
    requires forall i :: 0 <= i < |lines| ==> '\n' !in lines[i] && !Text.AllSpace(lines[i])
    requires j == Text.Join(lines, '\n') && out == j + "\n" && r == Text.Trim(out)
    ensures r != [] && Text.Count(r, '\n') == |lines| - 1
  {
    var a :| Text.TrimmedAt(out, r, a);
    Text.JoinEnds(lines, '\n');
    assert lines[0] <= out;
    assert r != [] by {
      Text.TrimEmptyIff(out);
      var p :| 0 <= p < |lines[0]| && !Text.IsSpace(lines[0][p]);
      assert out[p] == lines[0][p];
    }
    CountAroundCut(lines, j, out, r, a);
  }

  /** Counting the newlines of a status listing once the white space cut
      from both ends is known to hold only the final newline. */
  lemma {:induction false} CountAroundCut(lines: seq<string>, j: string, out: string, r: string, a: int)
    requires |lines| >= 1
    requires forall i :: 0 <= i < |lines| ==> '\n' !in lines[i] && !Text.AllSpace(lines[i])
    requires j == Text.Join(lines, '\n') && out == j + "\n"
    requires Text.TrimmedAt(out, r, a) && r != [] && !Text.IsSpace(r[|r| - 1])
    ensures Text.Count(r, '\n') == |lines| - 1
  {
    var e := a + |r|;
    var first, last := lines[0], lines[|lines| - 1];
    assert '\n' !in first && !Text.AllSpace(first);
    assert '\n' !in last && !Text.AllSpace(last);
    Text.JoinEnds(lines, '\n');
    assert Text.Count(out[..a], '\n') == 0 by {
      assert first <= out;
      LeadingCutInFirstLine(out, first, a);
    }
    assert e <= |j| by {
      assert r[|r| - 1] == out[e - 1];
      assert out[|j|] == '\n';
    }
    assert Text.Count(out[e..], '\n') == 1 by {
      TrailingCutInLastLine(j, last, e);
    }
    assert Text.Count(out, '\n') == |lines| by {
      Text.CountJoin(lines, '\n');
      Text.CountAppend(j, "\n", '\n');
      assert Text.Count("\n", '\n') == 1 by { assert "\n"[1..] == []; }
    }
    CountInThree(out, a, e, '\n');
    assert out[a..e] == r;
  }

  /** Occurrences in a text are those before `a`, between `a` and `e` and
      from `e` on. */
  lemma CountInThree(s: string, a: int, e: int, c: char)
    requires 0 <= a <= e <= |s|
    ensures Text.Count(s, c) == Text.Count(s[..a], c) + Text.Count(s[a..e], c) + Text.Count(s[e..], c)
  {
    assert s == s[..a] + s[a..e] + s[e..];
    Text.CountAppend(s[..a], s[a..e], c);
    Text.CountAppend(s[..a] + s[a..e], s[e..], c);
  }

  /** White space cut from the front of a text that starts with a line
      holding a non-space character stays inside that line. */
  lemma LeadingCutInFirstLine(out: string, first: string, a: int)
    requires first <= out && '\n' !in first && !Text.AllSpace(first)
    requires 0 <= a <= |out| && Text.AllSpace(out[..a])
    ensures Text.Count(out[..a], '\n') == 0
  {
    var p :| 0 <= p < |first| && !Text.IsSpace(first[p]);
    assert out[p] == first[p];
    assert a <= p;
    assert out[..a] == first[..a];
    assert '\n' !in out[..a] by {
      forall x | x in out[..a] ensures x != '\n' {
        assert x in first;
      }
    }
    Text.CountAbsent(out[..a], '\n');
  }

  /** White space cut from the back of a text whose last line holds a
      non-space character and is ended by a newline stays inside that line
      and its newline. */
  lemma TrailingCutInLastLine(body: string, last: string, e: int)
    requires |last| <= |body| && body[|body| - |last|..] == last
    requires '\n' !in last && !Text.AllSpace(last)
    requires 0 <= e <= |body| && Text.AllSpace((body + "\n")[e..])
    ensures Text.Count((body + "\n")[e..], '\n') == 1
  {
    var out := body + "\n";
    var q :| 0 <= q < |last| && !Text.IsSpace(last[q]);
    var qo := |body| - |last| + q;
    assert out[qo] == last[q] by { assert body[|body| - |last|..][q] == last[q]; }
    assert e > qo;
    assert e >= |body| - |last|;
    var tail := last[e - (|body| - |last|)..];
    assert out[e..] == tail + "\n";
    assert '\n' !in tail by {
      forall x | x in tail ensures x != '\n' {
        assert x in last;
      }
    }
    Text.CountAbsent(tail, '\n');
    Text.CountAppend(tail, "\n", '\n');
    assert Text.Count("\n", '\n') == 1 by { assert "\n"[1..] == []; }
  }

  /** `status` without a name, given the active tasks as listed; the loop
      keeps each row paired with its task. */
  method Overview(w: World, cwd: string, tasks: seq<Task>, statusOf: string -> Git.CommandOutcome)
    returns (rows: seq<Row>)
    ensures |rows| == |tasks|
    ensures forall i :: 0 <= i < |rows| ==> rows[i].task == tasks[i]
    ensures forall i :: 0 <= i < |rows| ==>
              var path := Tasks.TaskPath(cwd, tasks[i].name);
              rows[i].summary == Summarize(path in w.paths, statusOf(path))
  {
    rows := [];
    var i := 0;
    while i < |tasks|
      invariant 0 <= i <= |tasks| && |rows| == i
      invariant forall k :: 0 <= k < i ==> rows[k].task == tasks[k]
      invariant forall k :: 0 <= k < i ==>
                  var path := Tasks.TaskPath(cwd, tasks[k].name);
                  rows[k].summary == Summarize(path in w.paths, statusOf(path))
    {
      var path := Tasks.TaskPath(cwd, tasks[i].name);
      rows := rows + [Row(tasks[i], Summarize(path in w.paths, statusOf(path)))];
      i := i + 1;
    }
  }

  /** The tasks of an overview, in order. */
  function TasksOf(rows: seq<Row>): (ts: seq<Task>)
    ensures |ts| == |rows| && forall i :: 0 <= i < |rows| ==> ts[i] == rows[i].task
  {
    seq(|rows|, i requires 0 <= i < |rows| => rows[i].task)
  }

  /** `status` without a name: every active task, most recently accessed
      first, each once per name it is stored under, with its summary. An
      empty result is the "no active tasks" message. */
  method ShowAllStatus(w: World, cwd: string, statusOf: string -> Git.CommandOutcome) returns (rows: seq<Row>)
    ensures Tasks.NewestFirst(TasksOf(rows))
    ensures forall t :: multiset(TasksOf(rows))[t] == |Tasks.NamesHolding(RegistryOf(w).tasks, Some(Active), t)|
    ensures forall i :: 0 <= i < |rows| ==> rows[i].task.status == Active
    ensures rows == [] <==> forall k :: k in RegistryOf(w).tasks ==> RegistryOf(w).tasks[k].status != Active
    ensures forall i :: 0 <= i < |rows| ==>
              var path := Tasks.TaskPath(cwd, rows[i].task.name);
              rows[i].summary == Summarize(path in w.paths, statusOf(path))
  {
    var reg := RegistryOf(w);
    var tasks := Tasks.ListTasks(reg, Some(Active));
    rows := Overview(w, cwd, tasks, statusOf);
    assert TasksOf(rows) == tasks;
    forall i | 0 <= i < |rows| ensures rows[i].task.status == Active {
      var t := tasks[i];
      assert t in multiset(tasks);
      assert |Tasks.NamesHolding(reg.tasks, Some(Active), t)| > 0;
    }
    if rows != [] {
      var t := tasks[0];
      assert t in multiset(tasks);
      assert |Tasks.NamesHolding(reg.tasks, Some(Active), t)| > 0;
      var k :| k in Tasks.NamesHolding(reg.tasks, Some(Active), t);
      assert reg.tasks[k].status == Active;
    } else {
      forall k | k in reg.tasks ensures reg.tasks[k].status != Active {
        var t := reg.tasks[k];
        assert |Tasks.NamesHolding(reg.tasks, Some(Active), t)| == 0;
        assert k !in Tasks.NamesHolding(reg.tasks, Some(Active), t);
      }
    }
  }

  /** The command: one task when a non-empty name is given, the overview
      otherwise. */
  datatype StatusOutput = One(report: Result<TaskReport, CommandError>) | All(rows: seq<Row>)

  method Status(w: World, cwd: string, name: Option<string>,
                branchOf: string -> Git.CommandOutcome, statusOf: string -> Git.CommandOutcome)
    returns (out: StatusOutput)
    ensures Truthy(name) <==> out.One?
    ensures out.One? ==> out.report == ShowTaskStatus(w, cwd, name.value, branchOf, statusOf)
    // Without a name: the overview of the active tasks, newest first, each
    // once per name holding it, with its summary; empty when none is active.
    ensures out.All? ==> forall i :: 0 <= i < |out.rows| ==> out.rows[i].task.status == Active
    ensures out.All? ==> Tasks.NewestFirst(TasksOf(out.rows))
    ensures out.All? ==>
              forall t :: multiset(TasksOf(out.rows))[t] == |Tasks.NamesHolding(RegistryOf(w).tasks, Some(Active), t)|
    ensures out.All? ==>
              (out.rows == [] <==> forall k :: k in RegistryOf(w).tasks ==> RegistryOf(w).tasks[k].status != Active)
    ensures out.All? ==>
              forall i :: 0 <= i < |out.rows| ==>
                var path := Tasks.TaskPath(cwd, out.rows[i].task.name);
                out.rows[i].summary == Summarize(path in w.paths, statusOf(path))
  {
    if Truthy(name) {
      out := One(ShowTaskStatus(w, cwd, name.value, branchOf, statusOf));
    } else {
      var rows := ShowAllStatus(w, cwd, statusOf);
      out := All(rows);
    }
  }
}

=== FILE: tasks.dfy ===
/** The registry store: loading with its empty default, creating, reading,
    updating and deleting task records, listing them newest first, and the
    worktree location derived from a task's name. Every operation is a pure
    function from the loaded registry to the registry that is saved back. */
module Tasks {
  import opened Results
  import opened Types
  import Paths

  /** The format version of a freshly created registry. */
  const RegistryVersion: string := "1.0.0"

  /** What the registry file holds: nothing yet, text that does not parse,
      or a parsed registry. */
  datatype StoredFile = Absent | Corrupt | Stored(registry: Registry)

  /** The failures of the record operations. */
  datatype RegistryError = AlreadyExists(name: string) | NotFound(name: string)

  /** A successful creation: the registry to save and the new record. */
  datatype Created = Created(registry: Registry, task: Task)

  /** Loads the registry. A missing file is first use and a file that does
      not parse is treated the same way: both give an empty registry at the
      current version. */
  function Load(f: StoredFile): (r: Registry)
    ensures f.Stored? ==> r == f.registry
    ensures !f.Stored? ==> r.version == RegistryVersion && r.tasks == map[]
  {
    match f
    case Stored(reg) => reg
    case _ => Registry(RegistryVersion, map[])
  }

  /** Writes the whole registry back, replacing what the file held. */
  function Save(reg: Registry): StoredFile {
    Stored(reg)
  }

  /** Saving and loading again gives back exactly the saved registry. */
  lemma LoadAfterSave(reg: Registry)
    ensures Load(Save(reg)) == reg
  {
  }

  /** Inserts a new record under `name`, stamped `now` for both creation and
      last access and marked active; refuses a name that is already taken. */
  function CreateTask(reg: Registry, id: string, name: string, branch: string,
                      mainRepo: string, description: Option<string>, now: nat)
    : (r: Result<Created, RegistryError>)
    ensures r.Err? <==> name in reg.tasks
    ensures r.Err? ==> r.error == AlreadyExists(name)
    ensures r.Ok? ==>
      && r.value.registry.version == reg.version
      && r.value.registry.tasks.Keys == reg.tasks.Keys + {name}
      && r.value.registry.tasks[name] == r.value.task
      && (forall k :: k in reg.tasks ==> r.value.registry.tasks[k] == reg.tasks[k])
    ensures r.Ok? ==>
      var t := r.value.task;
      && t.id == id && t.name == name && t.branch == branch && t.mainRepo == mainRepo
      && t.description == description && t.customNotes == None
      && t.status == Active && t.created == now && t.lastAccessed == now
  {
    if name in reg.tasks then
      Err(AlreadyExists(name))
    else
      var t := Task(id, name, branch, mainRepo, now, now, description, Active, None);
      Ok(Created(reg.(tasks := reg.tasks[name := t]), t))
  }

  /** Looks a name up: a record exactly for the names the registry holds. */
  function GetTask(reg: Registry, name: string): (r: Option<Task>)
    ensures r.Some? <==> name in reg.tasks
    ensures r.Some? ==> r.value == reg.tasks[name]
  {
    if name in reg.tasks then Some(reg.tasks[name]) else None
  }

  /** A partial task: the fields an update overrides; absent fields keep
      their old value. */
  datatype TaskUpdate = TaskUpdate(
    id: Option<string>,
    name: Option<string>,
    branch: Option<string>,
    mainRepo: Option<string>,
    created: Option<nat>,
    lastAccessed: Option<nat>,
    description: Option<string>,
    status: Option<TaskStatus>,
    customNotes: Option<string>)

  /** The update that overrides nothing. */
  const NoChange: TaskUpdate := TaskUpdate(None, None, None, None, None, None, None, None, None)

  /** The update every command applies when a task is opened: last access
      becomes `now` and the status becomes active. */
  function Refresh(now: nat): TaskUpdate {
    NoChange.(lastAccessed := Some(now), status := Some(Active))
  }

  /** Shallow merge: the old record with the update's present fields laid
      over it. */
  function Merge(t: Task, u: TaskUpdate): Task {
    Task(
      u.id.GetOr(t.id),
      u.name.GetOr(t.name),
      u.branch.GetOr(t.branch),
      u.mainRepo.GetOr(t.mainRepo),
      u.created.GetOr(t.created),
      u.lastAccessed.GetOr(t.lastAccessed),
      if u.description.Some? then u.description else t.description,
      u.status.GetOr(t.status),
      if u.customNotes.Some? then u.customNotes else t.customNotes)
  }

  /** The second update's fields win over the first's. */
  function Then(u1: TaskUpdate, u2: TaskUpdate): TaskUpdate {
    TaskUpdate(
      if u2.id.Some? then u2.id else u1.id,
      if u2.name.Some? then u2.name else u1.name,
      if u2.branch.Some? then u2.branch else u1.branch,
      if u2.mainRepo.Some? then u2.mainRepo else u1.mainRepo,
      if u2.created.Some? then u2.created else u1.created,
      if u2.lastAccessed.Some? then u2.lastAccessed else u1.lastAccessed,
      if u2.description.Some? then u2.description else u1.description,
      if u2.status.Some? then u2.status else u1.status,
      if u2.customNotes.Some? then u2.customNotes else u1.customNotes)
  }

  /** Merging nothing changes nothing; merging the same update twice is
      merging it once; two merges in a row are one merge of the combined
      update. */
  lemma MergeLaws(t: Task, u: TaskUpdate, u2: TaskUpdate)
    ensures Merge(t, NoChange) == t
    ensures Merge(Merge(t, u), u) == Merge(t, u)
    ensures Merge(Merge(t, u), u2) == Merge(t, Then(u, u2))
  {
  }

  /** A refresh sets the status to active and the last access to `now` and
      keeps every other field, in particular the branch. */
  lemma RefreshKeepsIdentity(t: Task, now: nat)
    ensures Merge(t, Refresh(now)).status == Active
    ensures Merge(t, Refresh(now)).lastAccessed == now
    ensures Merge(t, Refresh(now)).(status := t.status, lastAccessed := t.lastAccessed) == t
  {
  }

  /** Overrides the fields of an existing record; refuses an unknown name.
      No other record and no other name changes. */
  function UpdateTask(reg: Registry, name: string, u: TaskUpdate): (r: Result<Registry, RegistryError>)
    ensures r.Err? <==> name !in reg.tasks
    ensures r.Err? ==> r.error == NotFound(name)
    ensures r.Ok? ==>
      && r.value.version == reg.version
      && r.value.tasks.Keys == reg.tasks.Keys
      && r.value.tasks[name] == Merge(reg.tasks[name], u)
      && (forall k :: k in reg.tasks && k != name ==> r.value.tasks[k] == reg.tasks[k])
  {
    if name !in reg.tasks then
      Err(NotFound(name))
    else
      Ok(reg.(tasks := reg.tasks[name := Merge(reg.tasks[name], u)]))
  }

  /** Removes an existing record; refuses an unknown name. Exactly that name
      disappears and every other record is kept. */
  function DeleteTask(reg: Registry, name: string): (r: Result<Registry, RegistryError>)
    ensures r.Err? <==> name !in reg.tasks
    ensures r.Err? ==> r.error == NotFound(name)
    ensures r.Ok? ==>
      && r.value.version == reg.version
      && r.value.tasks.Keys == reg.tasks.Keys - {name}
      && (forall k :: k in r.value.tasks ==> r.value.tasks[k] == reg.tasks[k])
  {
    if name !in reg.tasks then
      Err(NotFound(name))
    else
      Ok(reg.(tasks := reg.tasks - {name}))
  }

  // ---------------------------------------------------------------------
  // Listing

  /** The status filter of a listing: none keeps every task. */
  predicate Selects(filter: Option<TaskStatus>, t: Task) {
    filter.None? || t.status == filter.value
  }

  /** The records a listing with `filter` reports, by name. */
  function Selection(tasks: map<string, Task>, filter: Option<TaskStatus>): map<string, Task> {
    map k | k in tasks && Selects(filter, tasks[k]) :: tasks[k]
  }

  /** The selected names under which the record `t` is stored: how many
      times a listing must report `t`. */
  function NamesHolding(tasks: map<string, Task>, filter: Option<TaskStatus>, t: Task): set<string> {
    set k | k in tasks && tasks[k] == t && Selects(filter, t)
  }

  /** Ordered by last access, most recent first. */
  predicate NewestFirst(s: seq<Task>) {
    forall i, j :: 0 <= i < j < |s| ==> s[i].lastAccessed >= s[j].lastAccessed
  }

  /** Puts `t` into a newest-first sequence, ahead of every record accessed
      no later than it. */
  function InsertByRecency(t: Task, s: seq<Task>): (r: seq<Task>)
    requires NewestFirst(s)
    ensures NewestFirst(r)
    ensures multiset(r) == multiset(s) + multiset{t}
    ensures |r| == |s| + 1
    ensures r[0] == t || (|s| > 0 && r[0] == s[0])
  {
    if |s| == 0 || s[0].lastAccessed <= t.lastAccessed then
      [t] + s
    else
      var rest := InsertByRecency(t, s[1..]);
      assert s == [s[0]] + s[1..];
      assert forall j :: 0 <= j < |rest| ==> s[0].lastAccessed >= rest[j].lastAccessed by {
        assert s[0].lastAccessed >= rest[0].lastAccessed;
      }
      [s[0]] + rest
  }

  /** The records sorted newest first; a permutation of the input. */
  function SortByRecency(s: seq<Task>): (r: seq<Task>)
    ensures NewestFirst(r)
    ensures multiset(r) == multiset(s)
  {
    if |s| == 0 then []
    else
      assert s == [s[0]] + s[1..];
      InsertByRecency(s[0], SortByRecency(s[1..]))
  }

  /** `picked` together with what `rest` still selects accounts for exactly
      what `all` selects: record by record and in number. */
  ghost predicate Tally(picked: seq<Task>, rest: map<string, Task>, all: map<string, Task>,
                        filter: Option<TaskStatus>) {
    && (forall t :: multiset(picked)[t] + |NamesHolding(rest, filter, t)| == |NamesHolding(all, filter, t)|)
    && |picked| + |Selection(rest, filter).Keys| == |Selection(all, filter).Keys|
  }

  /** Removing a name from a map removes it from the names holding its
      record and from no other record's names. */
  lemma NamesWithout(m: map<string, Task>, k: string, filter: Option<TaskStatus>, t: Task)
    requires k in m
    ensures |NamesHolding(m - {k}, filter, t)| + (if t == m[k] && Selects(filter, t) then 1 else 0)
            == |NamesHolding(m, filter, t)|
  {
    if t == m[k] && Selects(filter, t) {
      assert NamesHolding(m - {k}, filter, t) == NamesHolding(m, filter, t) - {k};
    } else {
      assert NamesHolding(m - {k}, filter, t) == NamesHolding(m, filter, t);
    }
  }

  /** Removing a name from a map removes it from the selection when the
      filter selects its record. */
  lemma SelectionWithout(m: map<string, Task>, k: string, filter: Option<TaskStatus>)
    requires k in m
    ensures |Selection(m - {k}, filter).Keys| + (if Selects(filter, m[k]) then 1 else 0)
            == |Selection(m, filter).Keys|
  {
    if Selects(filter, m[k]) {
      assert Selection(m - {k}, filter).Keys == Selection(m, filter).Keys - {k};
    } else {
      assert Selection(m - {k}, filter).Keys == Selection(m, filter).Keys;
    }
  }

  /** Moving one name from `rest` to `picked` (when the filter selects its
      record) keeps the tally. */
  lemma TallyStep(picked: seq<Task>, rest: map<string, Task>, all: map<string, Task>,
                  filter: Option<TaskStatus>, k: string)
    requires k in rest
    requires Tally(picked, rest, all, filter)
    ensures Tally(if Selects(filter, rest[k]) then picked + [rest[k]] else picked, rest - {k}, all, filter)
  {
    var picked' := if Selects(filter, rest[k]) then picked + [rest[k]] else picked;
    forall t ensures multiset(picked')[t] + |NamesHolding(rest - {k}, filter, t)| == |NamesHolding(all, filter, t)| {
      CountStep(picked, rest, filter, k, t);
    }
    SelectionWithout(rest, k, filter);
  }

  /** The record-by-record half of `TallyStep`: what `picked` gains for `t`
      is what the names holding `t` lose. */
  lemma CountStep(picked: seq<Task>, rest: map<string, Task>, filter: Option<TaskStatus>, k: string, t: Task)
    requires k in rest
    ensures var picked' := if Selects(filter, rest[k]) then picked + [rest[k]] else picked;
            multiset(picked')[t] + |NamesHolding(rest - {k}, filter, t)|
            == multiset(picked)[t] + |NamesHolding(rest, filter, t)|
  {
    var t0 := rest[k];
    NamesWithout(rest, k, filter, t);
    if Selects(filter, t0) {
      assert multiset(picked + [t0]) == multiset(picked) + multiset{t0};
    }
  }

  /** Lists the tasks with the given status, or all tasks when there is no
      filter, most recently accessed first. Each selected record appears once
      per name it is stored under; the order among records accessed at the
      same moment is not fixed, because the registry map keeps no insertion
      order. */
  method ListTasks(reg: Registry, filter: Option<TaskStatus>) returns (r: seq<Task>)
    ensures NewestFirst(r)
    ensures forall t :: multiset(r)[t] == |NamesHolding(reg.tasks, filter, t)|
    ensures |r| == |Selection(reg.tasks, filter).Keys|
  {
    var picked: seq<Task> := [];
    var rest := reg.tasks;
    while rest != map[]
      invariant Tally(picked, rest, reg.tasks, filter)
      decreases |rest|
    {
      var k :| k in rest;
      TallyStep(picked, rest, reg.tasks, filter, k);
      if Selects(filter, rest[k]) {
        picked := picked + [rest[k]];
      }
      rest := rest - {k};
    }
    assert forall t :: NamesHolding(rest, filter, t) == {};
    assert Selection(rest, filter).Keys == {};
    r := SortByRecency(picked);
  }

  // ---------------------------------------------------------------------
  // Worktree location

  /** Name of the directory under the invoking directory that holds every
      task's worktree. */
  const TasksDir: string := "tasks"

  /** The worktree location of a task: `<cwd>/tasks/<name>`. */
  function TaskPath(cwd: string, name: string): (p: string)
    ensures p == Paths.JoinPath(cwd, TasksDir) + "/" + name
  {
    Paths.JoinPath(Paths.JoinPath(cwd, TasksDir), name)
  }

  /** Distinct names get distinct worktree locations. */
  lemma TaskPathInjective(cwd: string, a: string, b: string)
    ensures TaskPath(cwd, a) == TaskPath(cwd, b) ==> a == b
  {
    var d := Paths.JoinPath(cwd, TasksDir) + "/";
    if TaskPath(cwd, a) == TaskPath(cwd, b) {
      assert a == TaskPath(cwd, a)[|d|..];
      assert b == TaskPath(cwd, b)[|d|..];
    }
  }

  /** The last segment of a worktree location is the task's name when the
      name holds no separator; the "path already exists" message relies on
      this to name the task to delete. */
  lemma BaseNameOfTaskPath(cwd: string, name: string)
    requires |name| > 0 && '/' !in name
    ensures Paths.BaseName(TaskPath(cwd, name)) == name
  {
    Paths.BaseNameAfterSeparator(Paths.JoinPath(cwd, TasksDir), name);
  }

  // ---------------------------------------------------------------------
  // Record lookup as the source writes it

  /** Names that every plain JavaScript object answers through its prototype.
      Each of them passes the task-name check. */
  const InheritedMembers: set<string> := {
    "constructor", "toString", "toLocaleString", "valueOf", "hasOwnProperty",
    "isPrototypeOf", "propertyIsEnumerable", "__proto__", "__defineGetter__",
    "__defineSetter__", "__lookupGetter__", "__lookupSetter__"
  }

  /** The truthiness test `registry.tasks[name]` as written: it also succeeds
      for the inherited members, which are functions or objects. */
  predicate HasEntryAsWritten(reg: Registry, name: string) {
    name in reg.tasks || name in InheritedMembers
  }

  /** Record creation with the lookup as written. */
  function CreateTaskAsWritten(reg: Registry, id: string, name: string, branch: string,
                               mainRepo: string, description: Option<string>, now: nat)
    : (r: Result<Created, RegistryError>)
    ensures r.Err? <==> HasEntryAsWritten(reg, name)
  {
    if HasEntryAsWritten(reg, name) then
      Err(AlreadyExists(name))
    else
      CreateTask(reg, id, name, branch, mainRepo, description, now)
  }

  /** As written, a registry with no tasks at all refuses to create the task
      "constructor", claiming it already exists, whereas own-key lookup
      creates it. */
  lemma CreateConstructorAsWritten(id: string, branch: string, repo: string, now: nat)
    ensures "constructor" !in Load(Absent).tasks
    ensures CreateTaskAsWritten(Load(Absent), id, "constructor", branch, repo, None, now)
            == Err(AlreadyExists("constructor"))
    ensures CreateTask(Load(Absent), id, "constructor", branch, repo, None, now).Ok?
  {
  }
}

=== FILE: text.dfy ===
/** The string operations the source relies on: ECMAScript `trim`, `split`
    on a single character, `startsWith` and `includes`. Strings are sequences
    of Unicode scalar values; no normalisation or case folding happens. */
module Text {

  /** The characters ECMAScript's `String.prototype.trim` strips: WhiteSpace
      (tab, vertical tab, form feed, space, no-break space, byte-order mark and
      the Zs category) and LineTerminator (LF, CR, LS, PS). */
  predicate IsSpace(c: char) {
    || c == '\t' || c == '\n' || c == '\U{000B}' || c == '\U{000C}' || c == '\r'
    || c == ' ' || c == '\U{00A0}' || c == '\U{1680}'
    || ('\U{2000}' <= c <= '\U{200A}')
    || c == '\U{2028}' || c == '\U{2029}' || c == '\U{202F}' || c == '\U{205F}'
    || c == '\U{3000}' || c == '\U{FEFF}'
  }

  predicate AllSpace(s: string) {
    forall i :: 0 <= i < |s| ==> IsSpace(s[i])
  }

  /** `s` with its leading white space removed: a suffix of `s` that does not
      start with white space, and everything cut off was white space. */
  function TrimStart(s: string): (r: string)
    ensures |r| <= |s| && r == s[|s| - |r|..]
    ensures r == [] || !IsSpace(r[0])
    ensures AllSpace(s[..|s| - |r|])
    decreases |s|
  {
    if |s| > 0 && IsSpace(s[0]) then
      var r := TrimStart(s[1..]);
      assert s[1..][|s| - 1 - |r|..] == s[|s| - |r|..];
      assert s[..|s| - |r|] == [s[0]] + s[1..][..|s| - 1 - |r|];
      r
    else s
  }

  /** `s` with its trailing white space removed: a prefix of `s` that does not
      end with white space, and everything cut off was white space. */
  function TrimEnd(s: string): (r: string)
    ensures |r| <= |s| && r == s[..|r|]
    ensures r == [] || !IsSpace(r[|r| - 1])
    ensures AllSpace(s[|r|..])
    decreases |s|
  {
    if |s| > 0 && IsSpace(s[|s| - 1]) then
      var init := s[..|s| - 1];
      var r := TrimEnd(init);
      assert init[..|r|] == s[..|r|];
      assert s[|r|..] == init[|r|..] + [s[|s| - 1]];
      r
    else s
  }

  /** ECMAScript `s.trim()`: the infix of `s` left once white space is cut
      from both ends. */
  function Trim(s: string): (r: string)
    ensures exists a :: TrimmedAt(s, r, a)
    ensures r == [] || (!IsSpace(r[0]) && !IsSpace(r[|r| - 1]))
  {
    var t := TrimStart(s);
    var r := TrimEnd(t);
    var a := |s| - |t|;
    assert TrimmedAt(s, r, a) by {
      assert t == s[a..];
      assert r == t[..|r|] == s[a..a + |r|];
      assert AllSpace(s[..a]);
      assert s[a + |r|..] == t[|r|..];
    }
    r
  }

  /** `r` is `s[a..a + |r|]` and only white space surrounds it in `s`. */
  ghost predicate TrimmedAt(s: string, r: string, a: int) {
    && 0 <= a <= a + |r| <= |s|
    && r == s[a..a + |r|]
    && AllSpace(s[..a])
    && AllSpace(s[a + |r|..])
  }

  /** A string trims to nothing exactly when it is all white space; this is
      the "clean working tree" test of the status report. */
  lemma TrimEmptyIff(s: string)
    ensures Trim(s) == [] <==> AllSpace(s)
  {
    var a :| TrimmedAt(s, Trim(s), a);
    if Trim(s) == [] {
      assert s == s[..a] + s[a..];
      forall i | 0 <= i < |s| ensures IsSpace(s[i]) {
        if i < a { assert s[i] == s[..a][i]; } else { assert s[i] == s[a..][i - a]; }
      }
    } else {
      assert !IsSpace(s[a]) by { assert s[a] == Trim(s)[0]; }
    }
  }

  /** White space around a text that neither starts nor ends with white
      space is exactly what trimming removes. */
  lemma TrimSurrounded(pad: string, s: string, pad2: string)
    requires AllSpace(pad) && AllSpace(pad2)
    requires |s| > 0 && !IsSpace(s[0]) && !IsSpace(s[|s| - 1])
    ensures Trim(pad + s + pad2) == s
  {
    assert pad + s + pad2 == pad + (s + pad2);
    TrimStartPadded(pad, s + pad2);
    TrimEndPadded(s, pad2);
  }

  lemma {:induction false} TrimStartPadded(pad: string, s: string)
    requires AllSpace(pad)
    requires |s| > 0 && !IsSpace(s[0])
    ensures TrimStart(pad + s) == s
    decreases |pad|
  {
    if |pad| > 0 {
      assert (pad + s)[1..] == pad[1..] + s;
      TrimStartPadded(pad[1..], s);
    }
  }

  lemma {:induction false} TrimEndPadded(s: string, pad: string)
    requires AllSpace(pad)
    requires |s| > 0 && !IsSpace(s[|s| - 1])
    ensures TrimEnd(s + pad) == s
    decreases |pad|
  {
    if |pad| > 0 {
      var init := pad[..|pad| - 1];
      assert (s + pad)[..|s + pad| - 1] == s + init;
      TrimEndPadded(s, init);
    } else {
      assert s + pad == s;
    }
  }

  /** Number of occurrences of `c` in `s`. */
  function Count(s: string, c: char): (n: nat)
    ensures n <= |s|
  {
    if |s| == 0 then 0 else (if s[0] == c then 1 else 0) + Count(s[1..], c)
  }

  /** The pieces rejoined with `sep` between consecutive ones. */
  function Join(parts: seq<string>, sep: char): string
    requires |parts| >= 1
  {
    if |parts| == 1 then parts[0] else parts[0] + [sep] + Join(parts[1..], sep)
  }

  /** ECMAScript `s.split(sep)` for a one-character separator: the maximal
      separator-free pieces of `s`, one more than there are separators, which
      rejoin to `s`. The empty string splits into one empty piece. */
  function Split(s: string, sep: char): (parts: seq<string>)
    ensures |parts| == Count(s, sep) + 1
    ensures forall i :: 0 <= i < |parts| ==> sep !in parts[i]
    ensures Join(parts, sep) == s
    decreases |s|
  {
    if |s| == 0 then [""]
    else
      var rest := Split(s[1..], sep);
      if s[0] == sep then
        [""] + rest
      else
        var r := [[s[0]] + rest[0]] + rest[1..];
        assert Join(r, sep) == s by {
          if |rest| > 1 {
            assert r[1..] == rest[1..];
            assert Join(rest, sep) == rest[0] + [sep] + Join(rest[1..], sep);
          }
          assert s == [s[0]] + s[1..];
        }
        r
  }

  /** Splitting undoes joining: separator-free pieces are recovered exactly. */
  lemma {:induction false} SplitJoin(parts: seq<string>, sep: char)
    requires |parts| >= 1
    requires forall i :: 0 <= i < |parts| ==> sep !in parts[i]
    ensures Split(Join(parts, sep), sep) == parts
    decreases |parts|
  {
    if |parts| == 1 {
      SplitFree(parts[0], sep);
    } else {
      SplitJoin(parts[1..], sep);
      SplitAfterPiece(parts[0], sep, Join(parts[1..], sep));
      assert parts == [parts[0]] + parts[1..];
    }
  }

  /** A separator-free string is a single piece. */
  lemma {:induction false} SplitFree(p: string, sep: char)
    requires sep !in p
    ensures Split(p, sep) == [p]
    decreases |p|
  {
    if |p| > 0 {
      SplitFree(p[1..], sep);
      assert p == [p[0]] + p[1..];
    }
  }

  /** A separator-free piece followed by the separator splits off as the
      first piece. */
  lemma {:induction false} SplitAfterPiece(p: string, sep: char, rest: string)
    requires sep !in p
    ensures Split(p + [sep] + rest, sep) == [p] + Split(rest, sep)
    decreases |p|
  {
    var s := p + [sep] + rest;
    if |p| == 0 {
      assert s[1..] == rest;
    } else {
      assert s[1..] == p[1..] + [sep] + rest;
      SplitAfterPiece(p[1..], sep, rest);
      assert [p[0]] + p[1..] == p;
    }
  }

  /** Occurrences in a concatenation add up. */
  lemma {:induction false} CountAppend(a: string, b: string, c: char)
    ensures Count(a + b, c) == Count(a, c) + Count(b, c)
    decreases |a|
  {
    if |a| == 0 {
      assert a + b == b;
    } else {
      assert (a + b)[1..] == a[1..] + b;
      CountAppend(a[1..], b, c);
    }
  }

  /** A string without `c` holds no occurrence of it. */
  lemma {:induction false} CountAbsent(s: string, c: char)
    requires c !in s
    ensures Count(s, c) == 0
    decreases |s|
  {
    if |s| > 0 {
      assert s[0] != c;
      assert forall x :: x in s[1..] ==> x in s;
      CountAbsent(s[1..], c);
    }
  }

  /** Joining separator-free pieces places exactly one separator between
      consecutive pieces. */
  lemma CountJoin(parts: seq<string>, sep: char)
    requires |parts| >= 1
    requires forall i :: 0 <= i < |parts| ==> sep !in parts[i]
    ensures Count(Join(parts, sep), sep) == |parts| - 1
  {
    SplitJoin(parts, sep);
  }

  /** A join starts with its first piece and ends with its last. */
  lemma {:induction false} JoinEnds(parts: seq<string>, sep: char)
    requires |parts| >= 1
    ensures var j := Join(parts, sep);
            && parts[0] <= j
            && |parts[|parts| - 1]| <= |j|
            && j[|j| - |parts[|parts| - 1]|..] == parts[|parts| - 1]
    decreases |parts|
  {
    if |parts| > 1 {
      JoinEnds(parts[1..], sep);
      var j := Join(parts, sep);
      var rest := Join(parts[1..], sep);
      assert j == parts[0] + [sep] + rest;
      assert j[|j| - |rest|..] == rest;
      var last := parts[|parts| - 1];
      assert last == parts[1..][|parts[1..]| - 1];
      assert j[|j| - |last|..] == rest[|rest| - |last|..];
    }
  }

  /** ECMAScript `s.startsWith(p)`. */
  predicate StartsWith(s: string, p: string) {
    p <= s
  }

  /** `sub` occurs in `s` starting at index `i`. */
  predicate OccursAt(s: string, sub: string, i: int) {
    0 <= i && i + |sub| <= |s| && s[i..i + |sub|] == sub
  }

  /** ECMAScript `s.includes(sub)`, computed by scanning from the left. */
  function Contains(s: string, sub: string): bool
    decreases |s|
  {
    StartsWith(s, sub) || (|s| > 0 && Contains(s[1..], sub))
  }

  /** The scan finds `sub` exactly when it occurs somewhere in `s`. */
  lemma {:induction false} ContainsIff(s: string, sub: string)
    ensures Contains(s, sub) <==> exists i :: OccursAt(s, sub, i)
    decreases |s|
  {
    if StartsWith(s, sub) {
      assert OccursAt(s, sub, 0);
    } else if |s| == 0 {
      assert |sub| > 0;
      assert forall i :: !OccursAt(s, sub, i);
    } else {
      ContainsIff(s[1..], sub);
      if Contains(s[1..], sub) {
        var i :| OccursAt(s[1..], sub, i);
        assert s[i + 1..i + 1 + |sub|] == s[1..][i..i + |sub|];
        assert OccursAt(s, sub, i + 1);
      }
      if exists i :: OccursAt(s, sub, i) {
        var i :| OccursAt(s, sub, i);
        assert i != 0;
        assert s[1..][i - 1..i - 1 + |sub|] == s[i..i + |sub|];
        assert OccursAt(s[1..], sub, i - 1);
      }
    }
  }
}

=== FILE: types.dfy ===
/** The records the registry and the git gateway exchange: a task, the
    registry that persists tasks, the user configuration and one entry of
    git's worktree list. Timestamps are points of an abstract clock. */
module Types {
  import opened Results

  /** The three states a task may be in; any state may follow any other. */
  datatype TaskStatus = Active | Paused | Completed

  /** One unit of work bound to one branch and one worktree. `id` is an
      opaque generated identifier, `created` and `lastAccessed` are clock
      readings, `customNotes` overrides the generated notes file. */
  datatype Task = Task(
    id: string,
    name: string,
    branch: string,
    mainRepo: string,
    created: nat,
    lastAccessed: nat,
    description: Option<string>,
    status: TaskStatus,
    customNotes: Option<string>)

  /** The persisted collection: a format version and the tasks by name. */
  datatype Registry = Registry(version: string, tasks: map<string, Task>)

  /** The user configuration as the commands read it. The terminal choice
      only matters to the terminal launcher and is not kept. */
  datatype Config = Config(
    mainRepo: string,
    defaultBranchPrefix: Option<string>,
    autoGenerateNotes: Option<bool>)

  /** One record of `git worktree list --porcelain`. `bare` and `detached`
      are true only when the corresponding line was seen; `head` and `branch`
      are absent when no such line was seen. */
  datatype WorktreeInfo = WorktreeInfo(
    worktree: string,
    bare: bool,
    head: Option<string>,
    branch: Option<string>,
    detached: bool)
}
